=== FILE: README.md ===
# rust-kbuild: symbol table, `.config` files and menuconfig rules in Dafny

This project models the core of rust-kbuild, a Rust reimplementation of the Linux
kernel's Kconfig tooling. The model has four parts:

- **Symbol table** (`symbol.dfy`, module `Symbols`). Symbols are kept by name with a type and an optional value string.
  - The first declaration of a name wins.
  - Setting a value only affects a declared symbol.
  - `y` and `m` count as enabled.
- **`.config` writer and reader** (`writer.dfy`, `reader.dfy`).
  - The writer emits a fixed three-line banner, then one line per symbol: `NAME=y`, `NAME=m`, `NAME="text"` or `# NAME is not set`.
  - The reader trims each line, skips blanks and comments, and splits assignments at the first `=`. The last line for a name wins.
  - The round trip from writer to reader is proved for tables the writer can write unambiguously (see `ConfigWriter.WriteThenRead` under "Left out"). For those tables, which symbols survive the round trip, and with which values, is stated exactly.
- **Generators** (`generator.dfy`). `auto.conf` and `autoconf.h` get one line per symbol whose value is set and is not `n`. `autoconf.h` writes `1` for `y`/`m` and a quoted string for anything else.
- **Menuconfig value and key rules** (`values.dfy`, `decimal.dfy`, `navigation.dfy`, `app.dfy`):
  - parsing stored strings into typed values, and the zero value of each type;
  - the space-bar toggle and the serialisation back to strings;
  - tracking which symbols differ from what was loaded or last saved, and what a save resets;
  - cursor arithmetic and submenu navigation;
  - the key handler as a state machine over the help modal, the save dialog, search mode and the main menu.

Modules `Options` (`options.dfy`) and `Text` (`text.dfy`) hold the `Option` type and the Rust string operations the code relies on:
- `trim`, `trim_matches`, `starts_with`, `ends_with`, `find`;
- `strip_prefix`, `trim_start_matches`, `trim_end_matches`.

The Rust `HashMap` behind the symbol table is a Dafny `map`. Its iteration order (`all_symbols`) is a parameter `order` that lists every key exactly once (`Symbols.Enumerates`). No property depends on that order.

Files are modelled as sequences of lines.

## Model

| member | source | states |
|---|---|---|
| Symbols.New | src/kconfig/symbol.rs:17-21 | the new table is empty |
| Symbols.AddSymbol | src/kconfig/symbol.rs:23-30 | adds the name with no value when absent; an existing entry is left exactly as it was; no other entry changes |
| Symbols.FirstDeclarationWins | src/kconfig/symbol.rs:23-30 | declaring a name twice keeps the first declaration's type |
| Symbols.SetValue | src/kconfig/symbol.rs:32-36 | an undeclared name leaves the table unchanged; a declared one gets the value and keeps its name, type and choice flag; other entries are untouched |
| Symbols.GetValue | src/kconfig/symbol.rs:38-40 | None for an unknown name or an unset symbol, else the stored value |
| Symbols.IsEnabled | src/kconfig/symbol.rs:42-48 | true exactly when the symbol exists and its value is `y` or `m` |
| Symbols.GetSymbol | src/kconfig/symbol.rs:50-52 | present exactly when declared, and then the stored symbol |
| Symbols.SetThenObserve | src/kconfig/symbol.rs:32-48 | after a set, reading the same name gives the new value (if declared); other names read and test as before |
| Symbols.KeysGrowOnlyByAdd | src/kconfig/symbol.rs:23-36 | after any sequence of adds and sets, the declared names are the old ones plus the added ones |
| Symbols.OperationsKeepWellKeyed | src/kconfig/symbol.rs:23-36 | every entry stays stored under its own name through adds and sets |
| Symbols.EnumerationLength | src/kconfig/symbol.rs:54-56 | an enumeration of the table visits as many names as it has symbols |
| Text.TrimWithKeepsSlice | src/config/reader.rs:14 | trimming keeps one contiguous slice of the line and removes only droppable characters outside it |
| Text.TrimMatchesKeepsSlice | src/config/reader.rs:36 | `trim_matches('"')` keeps one contiguous slice and removes only double quotes outside it |
| ConfigReader.SplitAssignment | src/config/reader.rs:30-39 | a line without `=` yields nothing; otherwise a trimmed name and a value with no edge quotes |
| ConfigReader.Classify | src/config/reader.rs:13-39 | a line never yields a not-set entry, and an assigned value has no edge quotes |
| ConfigReader.NotSetLineIsComment | src/config/reader.rs:17-22 | every line the not-set test would accept already starts with `#`, so the comment test at line 17 skips it first |
| ConfigReader.ClassifyCases | src/config/reader.rs:14-39 | blank and comment lines are skipped; a line assigns exactly when it is not a comment and contains `=`; the name is trimmed |
| ConfigReader.CommentLineSkipped | src/config/reader.rs:17-19 | any line starting with `#` is skipped |
| ConfigReader.ClassifyAssignmentLine | src/config/reader.rs:30-39 | `name=rest` assigns the trimmed name to the trimmed, unquoted rest |
| ConfigReader.Read | src/config/reader.rs:9-43 | every entry of the map comes from an assignment line for that name, and its value has no edge quotes |
| ConfigReader.Fold | src/config/reader.rs:13-40 | a file whose every line is skipped reads as the empty map |
| ConfigReader.FoldNeverInvents | src/config/reader.rs:13-40 | every bound name was bound by some line, to the value the map holds |
| ConfigReader.StepEffect | src/config/reader.rs:26-38 | one line's insert binds the name it carries and leaves every other name as it was |
| ConfigReader.LastBindingWins | src/config/reader.rs:13-40 | the last line that binds a name decides its value |
| ConfigReader.BoundIffSomeLineBinds | src/config/reader.rs:13-40 | a name is in the map exactly when some line binds it |
| ConfigReader.FoldAppend | src/config/reader.rs:17-19 | appending skipped lines does not change the map |
| ConfigReader.ClassifyIntended | src/config/reader.rs:21-28 | with the not-set test first: a line is not-set exactly when it has the not-set form, and assigns exactly when it is a non-comment line with `=` |
| ConfigReader.IntendedAgreesOffNotSet | src/config/reader.rs:21-28 | away from not-set lines, the corrected classifier agrees with the one as written |
| ConfigReader.NotSetLineReadIntended | src/config/reader.rs:22-27 | `# CONFIG_X is not set` names `CONFIG_X` when the not-set test runs |
| ConfigWriter.Body | src/config/writer.rs:17-33 | one line per enumerated name, each the line for that symbol's value |
| ConfigWriter.Write | src/config/writer.rs:10-36 | the banner, then exactly one line per symbol, in enumeration order |
| ConfigWriter.SymbolLine | src/config/writer.rs:18-32 | a set value other than `n` gives a line starting `NAME=`; no value or `n` gives the not-set comment |
| ConfigWriter.SymbolLineForms | src/config/writer.rs:18-32 | `y`/`m` are written bare, `n` and no value as a not-set comment, anything else in double quotes |
| ConfigWriter.HeaderSkipped | src/config/writer.rs:13-15 | the reader skips every banner line |
| ConfigWriter.SymbolLineReadsBack | src/config/writer.rs:17-33 | the reader turns a written symbol line back into its name and value, or skips it when the value is unset or `n` |
| ConfigWriter.EnabledLineReadsBack | src/config/writer.rs:20-21 | `NAME=y` and `NAME=m` read back as written |
| ConfigWriter.QuotedLineReadsBack | src/config/writer.rs:26-27 | `NAME="v"` reads back as `v` |
| ConfigWriter.SymbolLineHasNoBreak | src/config/writer.rs:17-33 | the line for a writable name and value holds no line break, so splitting the file into lines gives it back whole |
| ConfigWriter.HeaderHasNoBreaks | src/config/writer.rs:13-15 | no banner line holds a line break |
| ConfigWriter.WrittenHeaderSkipped | src/config/writer.rs:13-15 | both readers skip the banner lines of a written file |
| ConfigWriter.WrittenLineClassified | src/config/writer.rs:17-33 | the reader's view of each written symbol line is the expected assignment, or a skip for unset and `n` |
| ConfigWriter.IntendedLineClassified | src/config/writer.rs:17-33 | the corrected reader's view of each written symbol line is the assignment, or not-set for unset and `n` |
| ConfigWriter.ClassifiedLinesReadBack | src/config/reader.rs:13-40 | lines that classify as the writer's banner plus one line per symbol fold to exactly the expected map |
| ConfigWriter.WriteThenRead | src/config/writer.rs:10-36 | reading the written file yields exactly the symbols whose value is set and not `n`, each with its value |
| ConfigWriter.NotSetIsLostOnReadBack | src/config/writer.rs:23-24 | a symbol set to `n` is absent after the round trip |
| ConfigWriter.WriteThenReadIntended | src/config/writer.rs:10-36 | with the corrected reader, every symbol comes back: its value if set, `n` otherwise |
| ConfigGenerator.StripConfigPrefix | src/config/generator.rs:19 | drops a leading `CONFIG_` and leaves any other name as it is |
| ConfigGenerator.EmittedNames | src/config/generator.rs:17-26 | the enumerated names whose value is set and not `n`, all of them, without repeats |
| ConfigGenerator.AutoConfWith | src/config/generator.rs:10-29 | the banner, then one `NAME=value` line per emitted symbol |
| ConfigGenerator.AutoconfHWith | src/config/generator.rs:31-63 | the comment banner and a blank line, then one `#define` per emitted symbol |
| ConfigGenerator.AutoConf | src/config/generator.rs:10-29 | the `.config` banner, then exactly as many lines as there are symbols set and not `n` |
| ConfigGenerator.AutoconfH | src/config/generator.rs:31-63 | the four-line C banner, then exactly as many lines as there are symbols set and not `n` |
| ConfigGenerator.EmittedCount | src/config/generator.rs:21-24 | one line per set symbol, never more lines than symbols |
| ConfigGenerator.AutoConfContents | src/config/generator.rs:10-29 | every set symbol has its line, every line after the banner belongs to a set symbol, and the line count is exact |
| ConfigGenerator.AutoConfLineOrigin | src/config/generator.rs:17-26 | every line after the banner is some set symbol's line |
| ConfigGenerator.AutoconfHContents | src/config/generator.rs:31-63 | enabled symbols get `#define N 1`, other set symbols `#define N "v"`, unset and `n` symbols nothing |
| ConfigGenerator.AutoconfHLineOrigin | src/config/generator.rs:39-60 | every define belongs to a set symbol |
| ConfigGenerator.GeneratorsAgree | src/config/generator.rs:39-60 | both generators emit the same number of symbol lines |
| ConfigGenerator.AutoConfMatchesConfigReadBack | src/config/generator.rs:17-26 | every entry read back from the written `.config` has a line in `auto.conf`, under its stripped name and with the value read |
| ConfigGenerator.PrefixDroppedFromAutoConf | src/config/generator.rs:19 | a set `CONFIG_X` appears as `X=v` and not as `CONFIG_X=v` |
| ConfigGenerator.PrefixDroppedFromAutoconfH | src/config/generator.rs:41 | an enabled `CONFIG_X` appears as `#define X 1` and not as `#define CONFIG_X 1` |
| ConfigGenerator.KeepingPrefixGivesExpectedLines | tests/integration_tests.rs:43-54 | keeping the declared name gives `CONFIG_X=v`, `#define CONFIG_X 1` and `#define CONFIG_X "v"` |
| Decimal.ParseI64 | src/ui/app.rs:93 | succeeds exactly when the text after an optional sign is a non-empty run of digits whose signed value fits in 64 bits, and then gives that signed value |
| Decimal.ParseSignedDigits | src/ui/app.rs:93 | digits parse to their value when it fits; a `+` changes nothing; a `-` negates |
| Decimal.FormatInt | src/ui/app.rs:725 | a leading minus exactly for negative numbers |
| Decimal.FormatThenParse | src/ui/app.rs:93 | formatting a 64-bit integer and parsing it back gives the integer |
| Decimal.ParseRejectsStrayCharacter | src/ui/app.rs:93 | any non-digit after the first character makes parsing fail |
| UiValues.ParseValue | src/ui/app.rs:84-96 | the result has the requested type; bool is true iff `y`; tristate is Yes iff `y`, Module iff `m` and on iff the symbol table calls it enabled; strings lose edge quotes; ints fall back to 0; hex is verbatim |
| UiValues.ZeroValue | src/ui/app.rs:56-65 | the zero of each type is off, and the string it is stored as is not enabled |
| UiValues.InitialValue | src/ui/app.rs:53-66 | a stored value is parsed with the symbol's type; a missing one gives the type's zero |
| UiValues.Toggle | src/ui/app.rs:688-696 | a bool is negated; a tristate goes No to Yes, Yes to Module, Module to No; nothing else toggles |
| UiValues.Serialise | src/ui/app.rs:718-727 | flags become `y`, `n` or `m`, enabled exactly when the value is on; strings are quoted |
| UiValues.TristateCycle | src/ui/app.rs:690-694 | from No, one toggle gives Yes and two give Module; three toggles bring any tristate back and fewer do not |
| UiValues.BoolCycle | src/ui/app.rs:689 | two toggles bring a bool back and one does not |
| UiValues.OnlyFlagsToggle | src/ui/app.rs:695 | strings, integers and hex values never toggle |
| UiValues.SerialiseThenParse | src/ui/app.rs:718-727 | parsing the stored string with the value's type gives the value back |
| UiValues.StringReadsBack | src/ui/app.rs:724 | a string without edge quotes is stored quoted and parses back as itself |
| UiValues.IntReadsBack | src/ui/app.rs:725 | a 64-bit integer is stored in decimal and parses back as itself |
| UiValues.SerialiseInjective | src/ui/app.rs:732-737 | two values of one type are stored as the same string only when equal, so comparing strings compares values |
| UiValues.ToggledValueReadsBack | src/ui/app.rs:718-723 | a toggled value is stored as `y`, `n` or `m` and reads back as itself |
| UiValues.ZeroValueReadsBack | src/ui/app.rs:56-65 | storing a zero value and starting again gives the same zero value |
| UiNavigation.MoveUp | src/ui/app.rs:593-597 | one item up, or nothing at the top; only the index changes |
| UiNavigation.MoveDown | src/ui/app.rs:599-611 | one item down exactly when a next item exists; an in-range index stays in range |
| UiNavigation.PageUp | src/ui/app.rs:635-637 | ten items up, saturating at 0 |
| UiNavigation.PageDown | src/ui/app.rs:639-651 | for a non-empty list the index lands in range, either ten further or on the last item; an empty list changes nothing |
| UiNavigation.JumpToFirst | src/ui/app.rs:653-655 | the index becomes 0 and nothing else changes |
| UiNavigation.JumpToLast | src/ui/app.rs:657-669 | the last item of a non-empty list; an empty list changes nothing |
| UiNavigation.EnterSubmenu | src/ui/app.rs:613-625 | pushes the selected item's id and resets index and scroll only when that item exists and has children; otherwise nothing changes |
| UiNavigation.GoBack | src/ui/app.rs:627-633 | at the root nothing changes; otherwise pops one path element and resets index and scroll |
| UiNavigation.MoveUpTimesSaturates | src/ui/app.rs:593-597 | k presses of Up move k items up, stopping at 0 |
| UiNavigation.MoveDownTimesClamps | src/ui/app.rs:599-611 | k presses of Down from an item in the list move k items down, stopping at the last |
| UiNavigation.PageUpIsRepeatedMoveUp | src/ui/app.rs:635-655 | PageUp equals ten Ups, and Home equals as many Ups as the index |
| UiNavigation.PageDownIsRepeatedMoveDown | src/ui/app.rs:639-669 | from an in-range index, PageDown equals ten Downs and End equals `len` Downs |
| UiNavigation.EnterThenGoBack | src/ui/app.rs:613-633 | going back right after entering a submenu returns to the enclosing path at its first item |
| MenuConfigApp.Initialised | src/ui/app.rs:51-67 | a config item whose symbol has a stored value gets that value parsed with its type; one without gets the type's zero; other items are untouched |
| MenuConfigApp.New | src/ui/app.rs:47-82 | every item of `allItems` initialised in place, while the menu tree is left as built; exactly the config items with a stored value are remembered, with that value; nothing pending; cursor at the root; no modal, no search |
| MenuConfigApp.InitialiseAll | src/ui/app.rs:51-67 | each item of a list becomes what `Initialised` makes of it, in order, with the length kept |
| MenuConfigApp.InitialisedTree | src/ui/app.rs:51-67 | the same menu-tree keys, each list initialised item by item |
| MenuConfigApp.NewIntended | src/ui/app.rs:47-82 | as `MenuConfigApp.New`, except that every menu-tree list is initialised item by item as well |
| MenuConfigApp.MenuTreeShowsStoredValue | src/ui/app.rs:53-54 | with the corrected start-up, a config item in any menu-tree list shows the value the app stored for its symbol |
| MenuConfigApp.BuiltMenuTreeLacksValues | src/ui/app.rs:51 | a config item built into the menu tree without a value gets one only from the corrected start-up, so the tree `new` leaves differs from the intended one |
| MenuConfigApp.StoredValueShownBack | src/ui/app.rs:53-54 | a value the app stored for an item is shown exactly again in `allItems` at the next start |
| MenuConfigApp.UpdateFirst | src/ui/app.rs:700-715 | only the first item with the id gets the new value; every other item is unchanged |
| MenuConfigApp.Track | src/ui/app.rs:731-737 | the id is pending exactly when its new string differs from the remembered one (or none is remembered), with that string; other ids are unchanged |
| MenuConfigApp.ToggledValue | src/ui/app.rs:680-696 | a new value exists only for an in-range selected item with a toggleable value, and it is that value toggled |
| MenuConfigApp.ToggleCurrentItem | src/ui/app.rs:671-743 | without a toggleable selection nothing changes; otherwise the first item with the id in the item list and in every menu-tree list gets the new value, the id is pending iff its new string differs from the remembered one, the table holds the new string, and other pending ids, remembered values, cursor and modals are unchanged |
| MenuConfigApp.ToggleBoolTwiceUnmarks | src/ui/app.rs:731-737 | toggling a bool away from its remembered string marks it pending; toggling it back clears the mark and restores the table |
| MenuConfigApp.ToggleKeepsConsistent | src/ui/app.rs:718-737 | a toggle keeps every pending entry different from the remembered value and equal to the table's value |
| MenuConfigApp.SaveConfig | src/ui/app.rs:745-763 | a failed write changes nothing; a successful one leaves nothing pending, remembers every stored value, keeps other remembered values, and leaves table, items and cursor alone |
| MenuConfigApp.SaveThenToggleBack | src/ui/app.rs:752-758 | after a save, toggling a bool away and back leaves nothing pending |
| MenuConfigApp.VisibleItems | src/ui/app.rs:600-606 | the search results while search is active with a non-empty query, otherwise the current submenu's items |
| MenuConfigApp.HandleSaveDialogKey | src/ui/app.rs:546-563 | only y and n quit, closing the dialog; y with a good write leaves nothing pending; a failed save changes nothing; Esc only closes the dialog; any other key changes nothing |
| MenuConfigApp.HandleSearchKey | src/ui/app.rs:565-591 | never quits and never touches the table; a typed character is appended to the query and Backspace drops the last one, both selecting index 0; Esc leaves search with an empty query at index 0; Enter leaves search keeping the query |
| MenuConfigApp.MenuMove | src/ui/app.rs:506-541 | Up/k move up, Down/j down, Left/Esc/h go back, Right/Enter/l enter the submenu, PageUp/PageDown page, Home/End jump to the ends; no other key moves; a selection inside the list stays inside it |
| MenuConfigApp.HandleMenuChar | src/ui/app.rs:484-525 | `?` opens help; `/` opens search with an empty query; s saves; space toggles the selected item; q quits only with nothing pending; a failed save changes nothing; only space changes the table |
| MenuConfigApp.HandleMenuKey | src/ui/app.rs:482-543 | a movement key (arrows, h/j/k/l, Enter, Esc, page keys, Home, End) only moves the cursor as `MenuMove` says and continues; other characters go to the command keys and other keys change nothing; quits only on q with nothing pending; only space changes the table; only space and s change items, pending or remembered values |
| MenuConfigApp.HandleKey | src/ui/app.rs:466-544 | the help modal swallows the key and closes; a quit with changes pending happens only on n in the save dialog; a failed save changes nothing |
| MenuConfigApp.QuitAsksWhenModified | src/ui/app.rs:484-491 | q opens the save dialog when something is pending and quits otherwise |
| MenuConfigApp.SaveDialogAnswers | src/ui/app.rs:546-563 | n closes the dialog and quits, Esc closes it and continues, y with a good write quits with nothing pending |
| MenuConfigApp.SearchEscapeResets | src/ui/app.rs:567-573 | Esc in search mode clears the query, leaves search, focuses the menu and selects the first item |
| MenuConfigApp.SaveThenQuit | src/ui/app.rs:484-495 | after s succeeds, q quits at once |
| MenuConfigApp.TableChangesOnlyBySpace | src/ui/app.rs:466-544 | the symbol table changes only through space in the main menu |
| MenuConfigApp.HandleKeyKeepsConsistent | src/ui/app.rs:466-544 | every key keeps pending entries different from remembered values and equal to the table |
| MenuConfigApp.RunKeys | src/ui/app.rs:99-110 | no keys leave the app as it is; each key is handled after the draw's selection clamp, and a first key that quits or fails ends the run with that step; a failed save needs some key whose write failed |
| MenuConfigApp.ClampSelection | src/ui/app.rs:189-210 | drawing pulls a selection past the end of a non-empty visible list back onto the list and leaves an in-range selection or an empty list as it is; only the selected index changes, and never upwards |
| MenuConfigApp.KeysKeepConsistent | src/ui/app.rs:102-108 | the same holds after any sequence of keys, each handled with the environment of its own moment |

## Left out

- File I/O is left out of the reader, writer, generators and `save_config`: opening, creating and writing files, `content.lines()` splitting, and the I/O errors that `?` propagates. Each file is a sequence of lines. A failed `.config` write in `save_config` is the `writeSucceeds` flag of `MenuConfigApp.Env`, and the error it returns is the outcome `SaveFailed`.
- `HashMap` iteration order is a parameter. The proofs hold for every order, so nothing is claimed about line order beyond "the order of the enumeration".
- `trim` uses ASCII whitespace (space, tab, line feed, vertical tab, form feed, carriage return). Unicode whitespace is left out.
- `set_value_tracked` (src/ui/app.rs:729) is not defined in `symbol.rs`. It is modelled as `Symbols.SetValue`.
- Not part of this model, so taken as parameters:
  - `ConfigState::build_from_entries`;
  - `ConfigState::get_items_for_path` (`Env.pathItems`);
  - `FuzzySearcher` (`Env.searchResults`);
  - `NavigationState::new` (`UiNavigation.Start`: empty path, index 0, scroll 0).
- `MenuConfigApp.New` takes the built item list and menu tree as given, with nothing remembered or pending yet. Whether `build_from_entries` already gives the tree's items values, and whether `get_items_for_path` reads the tree, is not part of this model; the submenu lists the key rules use are the parameter `Env.pathItems`.
- Rendering, layout, colours, the theme and event polling are left out (src/ui/app.rs:98-464 and `run`): they draw to the terminal and wait for input. The one state change a draw makes, the selection clamp of src/ui/app.rs:207-210, is modelled as `MenuConfigApp.ClampSelection` and applied before every key in `MenuConfigApp.RunKeys`; the rest changes nothing the key rules read. The status message is kept as a string field. Only its text is modelled.
- The Kconfig lexer, parser, AST, expression evaluation and dependency resolution are not part of this model, and neither are `src/cli/menuconfig.rs` and the `mod.rs`/`lib.rs` re-exports.
- `usize` overflow of `selected_index + 10` in `page_down` is left out. An index that large cannot arise from a list that fits in memory.
- ConfigReader.Read: its own contract states only where each entry comes from. Which line wins for a name, and which names are present, is stated by `ConfigReader.LastBindingWins` and `ConfigReader.BoundIffSomeLineBinds`.
- ConfigWriter.WriteThenRead: requires names without `=`, line breaks, edge whitespace or a leading `#`, and values without line breaks or edge quotes. The writer does not escape any of these. The file is split into lines (`content.lines()`) before it is read, so a line break inside a name or value would split one written line into two. Such tables do not read back as written.
- ConfigWriter.WriteThenReadIntended: has the same requirement on names and values as `ConfigWriter.WriteThenRead`, for the same reason. It also requires every name to start with `CONFIG_` and not to end with ` is not set`, the only names whose not-set line the corrected reader can recognise.

## Findings

| source | as written | input that shows it | evidently intended | confidence | as-written member | corrected member |
|---|---|---|---|---|---|---|
| src/config/reader.rs:17-28 | the comment test at line 17 runs before the not-set test at line 22, so every `# CONFIG_X is not set` line is skipped and lines 22-27 never run | `CONFIG_B` set to `n` is written as `# CONFIG_B is not set` and reads back with no `CONFIG_B` entry; tests/config_tests.rs:52 expects `n` | the not-set test before the comment test, so the symbol reads back as `n` | not executed | ConfigWriter.NotSetIsLostOnReadBack | ConfigWriter.WriteThenReadIntended |
| src/config/generator.rs:19 | `auto.conf` drops the `CONFIG_` prefix from every name | `CONFIG_TEST_BOOL=y` is emitted as `TEST_BOOL=y`; tests/integration_tests.rs:43 looks for `CONFIG_TEST_BOOL=y` | keep the name as declared | not executed | ConfigGenerator.PrefixDroppedFromAutoConf | ConfigGenerator.KeepingPrefixGivesExpectedLines |
| src/ui/app.rs:51-67 | `new` initialises only `config_state.all_items`; the menu tree keeps the items as `build_from_entries` made them | a config item whose symbol holds `y`, built into a menu-tree list without a value, still has none after `new`; tests/ui_tests.rs:26 says `new` initialises values in both `all_items` and `menu_tree`, and the submenu view and the toggle take their items from `get_items_for_path` (src/ui/app.rs:195, 677); plausible only, since `build_from_entries` and `get_items_for_path` are not part of this model | every menu-tree list initialised like `all_items` | not executed | MenuConfigApp.New | MenuConfigApp.NewIntended |
| src/config/generator.rs:41 | `autoconf.h` drops the `CONFIG_` prefix from every name | `CONFIG_TEST_BOOL=y` is emitted as `#define TEST_BOOL 1`; tests/integration_tests.rs:52 looks for `#define CONFIG_TEST_BOOL 1` | keep the name as declared | not executed | ConfigGenerator.PrefixDroppedFromAutoconfH | ConfigGenerator.KeepingPrefixGivesExpectedLines |

The corrected reader (`ConfigReader.ClassifyIntended`, `ConfigReader.ReadIntended`), the generators with the name kept (`ConfigGenerator.AutoConfKeepingPrefix`, `ConfigGenerator.AutoconfHKeepingPrefix`) and the corrected start-up (`MenuConfigApp.NewIntended`, `MenuConfigApp.BuiltMenuTreeLacksValues` for the difference) sit beside the definitions as written. The rest of the model keeps the as-written behaviour, so that it describes the program as it is.

The menuconfig toggle reads its item from the visible list. In the main menu that list is always the current submenu's items, because while search is active every key goes to the search handler (src/ui/app.rs:478-480).

=== FILE: app.dfy ===
/**
 * The menuconfig application state and its key handling: a fresh app takes
 * its item values from the symbol table, the space bar toggles the selected
 * item and records whether it now differs from what was loaded or last
 * saved, saving clears that record, and the keys move between the menu, the
 * help modal, the save dialog and the search bar.
 *
 * The item lists that depend on code outside this model (the menu built
 * from the Kconfig entries, the items of the current submenu, the fuzzy
 * search results) and whether writing `.config` succeeds are parameters.
 */
module MenuConfigApp {
  import opened Options
  import Symbols
  import opened UiValues
  import opened UiNavigation

  datatype PanelFocus = MenuTree | SearchBar | Dialog

  datatype ConfigState = ConfigState(
    allItems: seq<MenuItem>,
    menuTree: map<string, seq<MenuItem>>,
    originalValues: map<string, string>,
    modifiedSymbols: map<string, string>)

  datatype App = App(
    config: ConfigState,
    table: Symbols.Table,
    navigation: NavigationState,
    searchActive: bool,
    searchQuery: string,
    focus: PanelFocus,
    showHelpModal: bool,
    showSaveDialog: bool,
    statusMessage: Option<string>)

  /** The key codes the app reacts to; every other key is `OtherKey`. */
  datatype KeyCode =
    | Char(c: char)
    | Up | Down | Left | Right | Enter | Esc | Backspace
    | PageUpKey | PageDownKey | Home | End
    | OtherKey

  /** What the event loop does next; `SaveFailed` is the error a failed save propagates. */
  datatype Outcome = Continue | Quit | SaveFailed

  datatype Step = Step(app: App, outcome: Outcome)

  /** What the key handler sees of the world outside the app state. */
  datatype Env = Env(
    pathItems: seq<MenuItem>,
    searchResults: seq<MenuItem>,
    writeSucceeds: bool)

  /** One key press and the world it is handled in. */
  datatype Event = Event(key: KeyCode, env: Env)

  predicate IsConfigKind(k: ItemKind) {
    k.Config? || k.MenuConfig?
  }

  // ---------------------------------------------------------------------
  // Start-up

  /** One item as `new` leaves it: a config item gets its symbol's value or its type's zero. */
  function Initialised(item: MenuItem, table: Symbols.Table): (r: MenuItem)
    ensures r.id == item.id && r.kind == item.kind && r.hasChildren == item.hasChildren
    ensures !IsConfigKind(item.kind) ==> r == item
    ensures IsConfigKind(item.kind) ==>
      && r.value.Some?
      && TypeOf(r.value.value) == item.kind.symbolType
      && Representable(r.value.value)
      && (Symbols.GetValue(table, item.id).None? ==> r.value == Some(ZeroValue(item.kind.symbolType)))
      && (Symbols.GetValue(table, item.id).Some? ==>
           r.value == Some(ParseValue(Symbols.GetValue(table, item.id).value, item.kind.symbolType)))
  {
    if IsConfigKind(item.kind) then
      item.(value := Some(InitialValue(Symbols.GetValue(table, item.id), item.kind.symbolType)))
    else item
  }

  /** `new`: initialise every item of `items`, remember every stored value, start at the root. */
  method New(items: seq<MenuItem>, menuTree: map<string, seq<MenuItem>>, table: Symbols.Table)
    returns (app: App)
    ensures |app.config.allItems| == |items|
    ensures forall i :: 0 <= i < |items| ==> app.config.allItems[i] == Initialised(items[i], table)
    ensures forall i :: 0 <= i < |items| && IsConfigKind(items[i].kind) ==>
      (items[i].id in app.config.originalValues <==> Symbols.GetValue(table, items[i].id).Some?)
    ensures forall id :: id in app.config.originalValues ==>
      && Symbols.GetValue(table, id) == Some(app.config.originalValues[id])
      && exists i :: 0 <= i < |items| && items[i].id == id && IsConfigKind(items[i].kind)
    ensures app.config.menuTree == menuTree && app.config.modifiedSymbols == map[]
    ensures app.table == table && app.navigation == Start
    ensures !app.searchActive && app.searchQuery == "" && app.focus == MenuTree
    ensures !app.showHelpModal && !app.showSaveDialog && app.statusMessage == None
  {
    var all := items;
    var originals: map<string, string> := map[];
    var i := 0;
    while i < |items|
      invariant 0 <= i <= |items| && |all| == |items|
      invariant forall j :: 0 <= j < i ==> all[j] == Initialised(items[j], table)
      invariant forall j :: i <= j < |items| ==> all[j] == items[j]
      invariant forall j ::
        (0 <= j < i && IsConfigKind(items[j].kind) && Symbols.GetValue(table, items[j].id).Some?) ==>
        items[j].id in originals
      invariant forall id :: id in originals ==>
        && Symbols.GetValue(table, id) == Some(originals[id])
        && exists j :: 0 <= j < i && items[j].id == id && IsConfigKind(items[j].kind)
    {
      var item := items[i];
      all := all[i := Initialised(item, table)];
      if IsConfigKind(item.kind) {
        var stored := Symbols.GetValue(table, item.id);
        if stored.Some? {
          originals := originals[item.id := stored.value];
        }
      }
      i := i + 1;
    }
    app := App(
      ConfigState(all, menuTree, originals, map[]),
      table, Start, false, "", MenuTree, false, false, None);
  }

  /** A value the app itself stored for a config item is shown again exactly at the next start. */
  lemma StoredValueShownBack(item: MenuItem, table: Symbols.Table, v: ConfigValue)
    requires IsConfigKind(item.kind) && TypeOf(v) == item.kind.symbolType && Representable(v)
    requires Symbols.GetValue(table, item.id) == Some(Serialise(v))
    ensures Initialised(item, table).value == Some(v)
  {
    SerialiseThenParse(v);
  }

  /** Every item of `items` as `Initialised` leaves it, in order. */
  function InitialiseAll(items: seq<MenuItem>, table: Symbols.Table): (r: seq<MenuItem>)
    ensures |r| == |items|
    ensures forall i :: 0 <= i < |items| ==> r[i] == Initialised(items[i], table)
    decreases |items|
  {
    if |items| == 0 then []
    else InitialiseAll(items[..|items| - 1], table) + [Initialised(items[|items| - 1], table)]
  }

  /** Every list of the menu tree initialised item by item. */
  function InitialisedTree(menuTree: map<string, seq<MenuItem>>, table: Symbols.Table)
    : (r: map<string, seq<MenuItem>>)
    ensures r.Keys == menuTree.Keys
    ensures forall k :: k in r ==> r[k] == InitialiseAll(menuTree[k], table)
  {
    map k | k in menuTree :: InitialiseAll(menuTree[k], table)
  }

  /**
   * `new` as its test describes it: the menu tree's lists are initialised
   * like the item list, so the submenu views show the stored values too.
   */
  method NewIntended(items: seq<MenuItem>, menuTree: map<string, seq<MenuItem>>, table: Symbols.Table)
    returns (app: App)
    ensures |app.config.allItems| == |items|
    ensures forall i :: 0 <= i < |items| ==> app.config.allItems[i] == Initialised(items[i], table)
    ensures app.config.menuTree.Keys == menuTree.Keys
    ensures forall k :: k in menuTree ==>
      && |app.config.menuTree[k]| == |menuTree[k]|
      && forall i :: 0 <= i < |menuTree[k]| ==> app.config.menuTree[k][i] == Initialised(menuTree[k][i], table)
    ensures forall id :: id in app.config.originalValues ==>
      && Symbols.GetValue(table, id) == Some(app.config.originalValues[id])
      && exists i :: 0 <= i < |items| && items[i].id == id && IsConfigKind(items[i].kind)
    ensures app.config.modifiedSymbols == map[] && app.table == table && app.navigation == Start
    ensures !app.searchActive && app.searchQuery == "" && app.focus == MenuTree
    ensures !app.showHelpModal && !app.showSaveDialog && app.statusMessage == None
  {
    app := New(items, menuTree, table);
    app := app.(config := app.config.(menuTree := InitialisedTree(menuTree, table)));
  }

  /** With the corrected start-up, every config item of every menu-tree list shows its symbol's value. */
  lemma MenuTreeShowsStoredValue(menuTree: map<string, seq<MenuItem>>, table: Symbols.Table,
                                 k: string, i: nat, v: ConfigValue)
    requires k in menuTree && i < |menuTree[k]| && IsConfigKind(menuTree[k][i].kind)
    requires TypeOf(v) == menuTree[k][i].kind.symbolType && Representable(v)
    requires Symbols.GetValue(table, menuTree[k][i].id) == Some(Serialise(v))
    ensures InitialisedTree(menuTree, table)[k][i].value == Some(v)
  {
    StoredValueShownBack(menuTree[k][i], table, v);
  }

  /**
   * As written, `new` leaves the menu tree as it was built: a config item
   * built without a value still has none, although the corrected start-up
   * gives it one.
   */
  lemma BuiltMenuTreeLacksValues(item: MenuItem, table: Symbols.Table)
    requires IsConfigKind(item.kind) && item.value == None
    ensures InitialisedTree(map["" := [item]], table)[""][0].value.Some?
    ensures InitialisedTree(map["" := [item]], table) != map["" := [item]]
  {
  }

  // ---------------------------------------------------------------------
  // Toggling and modification tracking

  /** Item `i` is the first in `items` whose id is `id`. */
  predicate IsFirstWithId(items: seq<MenuItem>, id: string, i: nat) {
    i < |items| && items[i].id == id && forall j :: 0 <= j < i ==> items[j].id != id
  }

  /** Give the first item with id `id` the value `v` (the loops that `break` after one update). */
  function UpdateFirst(items: seq<MenuItem>, id: string, v: ConfigValue): (r: seq<MenuItem>)
    ensures |r| == |items|
    ensures forall i :: 0 <= i < |r| ==>
      r[i] == (if IsFirstWithId(items, id, i) then items[i].(value := Some(v)) else items[i])
    decreases |items|
  {
    if |items| == 0 then []
    else if items[0].id == id then [items[0].(value := Some(v))] + items[1..]
    else
      var rest := UpdateFirst(items[1..], id, v);
      assert forall i :: 1 <= i < |items| ==>
        (IsFirstWithId(items, id, i) <==> IsFirstWithId(items[1..], id, i - 1));
      [items[0]] + rest
  }

  /** The modification record after `id` has been set to the string `s`. */
  function Track(modified: map<string, string>, original: map<string, string>, id: string, s: string)
    : (r: map<string, string>)
    ensures id in r <==> !(id in original && original[id] == s)
    ensures id in r ==> r[id] == s
    ensures forall k :: k != id ==> (k in r <==> k in modified)
    ensures forall k :: k != id && k in modified ==> r[k] == modified[k]
  {
    if id in original && original[id] == s then modified - {id} else modified[id := s]
  }

  /** The value the space bar would give the selected item, if it has one. */
  function ToggledValue(app: App, items: seq<MenuItem>): (r: Option<ConfigValue>)
    ensures r.Some? ==>
      && app.navigation.selectedIndex < |items|
      && items[app.navigation.selectedIndex].value.Some?
      && Toggle(items[app.navigation.selectedIndex].value.value) == r
    ensures app.navigation.selectedIndex < |items| && items[app.navigation.selectedIndex].value.Some? ==>
      r == Toggle(items[app.navigation.selectedIndex].value.value)
  {
    if |items| == 0 || app.navigation.selectedIndex >= |items| then None
    else
      match items[app.navigation.selectedIndex].value
      case Some(v) => Toggle(v)
      case None => None
  }

  /** `toggle_current_item` over the visible list `items`. */
  function ToggleCurrentItem(app: App, items: seq<MenuItem>): (r: App)
    ensures ToggledValue(app, items).None? ==> r == app
    ensures ToggledValue(app, items).Some? ==>
      var id := items[app.navigation.selectedIndex].id;
      var s := Serialise(ToggledValue(app, items).value);
      && (id in r.config.modifiedSymbols <==>
           !(id in app.config.originalValues && app.config.originalValues[id] == s))
      && (id in r.config.modifiedSymbols ==> r.config.modifiedSymbols[id] == s)
      && r.table == Symbols.SetValue(app.table, id, s)
      && (forall k :: k != id ==> (k in r.config.modifiedSymbols <==> k in app.config.modifiedSymbols))
      && (forall k :: k != id && k in app.config.modifiedSymbols ==>
           r.config.modifiedSymbols[k] == app.config.modifiedSymbols[k])
      && r.config.menuTree.Keys == app.config.menuTree.Keys
      && r.config.allItems == UpdateFirst(app.config.allItems, id, ToggledValue(app, items).value)
      && (forall k :: k in r.config.menuTree ==>
           r.config.menuTree[k] == UpdateFirst(app.config.menuTree[k], id, ToggledValue(app, items).value))
    ensures r.config.originalValues == app.config.originalValues
    ensures r.navigation == app.navigation && r.searchActive == app.searchActive
    ensures r.searchQuery == app.searchQuery && r.focus == app.focus
    ensures r.showHelpModal == app.showHelpModal && r.showSaveDialog == app.showSaveDialog
  {
    match ToggledValue(app, items)
    case None => app
    case Some(nv) =>
      var id := items[app.navigation.selectedIndex].id;
      var s := Serialise(nv);
      var config := app.config.(
        allItems := UpdateFirst(app.config.allItems, id, nv),
        menuTree := map k | k in app.config.menuTree :: UpdateFirst(app.config.menuTree[k], id, nv),
        modifiedSymbols := Track(app.config.modifiedSymbols, app.config.originalValues, id, s));
      app.(config := config,
           table := Symbols.SetValue(app.table, id, s),
           statusMessage := Some(" " + id + " toggled"))
  }

  /**
   * Toggling a bool item twice returns it to the string it was loaded or saved with,
   * so it is no longer recorded as modified and the table holds that string again.
   */
  lemma ToggleBoolTwiceUnmarks(app: App, items: seq<MenuItem>, b: bool)
    requires app.navigation.selectedIndex < |items|
    requires items[app.navigation.selectedIndex].value == Some(Bool(b))
    requires var id := items[app.navigation.selectedIndex].id;
      id in app.config.originalValues && app.config.originalValues[id] == Serialise(Bool(b))
    ensures var sel := app.navigation.selectedIndex;
      var id := items[sel].id;
      var once := ToggleCurrentItem(app, items);
      var twice := ToggleCurrentItem(once, items[sel := items[sel].(value := Some(Bool(!b)))]);
      && id in once.config.modifiedSymbols
      && id !in twice.config.modifiedSymbols
      && Symbols.GetValue(twice.table, id) == (if id in app.table then Some(Serialise(Bool(b))) else None)
  {
  }

  /** Every pending modification differs from the remembered value and is what the table holds. */
  predicate Consistent(app: App) {
    forall k :: k in app.config.modifiedSymbols ==>
      && !(k in app.config.originalValues && app.config.originalValues[k] == app.config.modifiedSymbols[k])
      && (k in app.table ==> app.table[k].value == Some(app.config.modifiedSymbols[k]))
  }

  lemma ToggleKeepsConsistent(app: App, items: seq<MenuItem>)
    requires Consistent(app)
    ensures Consistent(ToggleCurrentItem(app, items))
  {
  }

  // ---------------------------------------------------------------------
  // Saving

  /**
   * `save_config` after the `.config` write: on success nothing is pending and every
   * stored value becomes the remembered one; a failed write changes nothing.
   */
  function SaveConfig(app: App, writeSucceeds: bool): (r: Option<App>)
    ensures r.Some? <==> writeSucceeds
    ensures r.Some? ==> |r.value.config.modifiedSymbols| == 0
    ensures r.Some? ==> forall k :: k in app.table && app.table[k].value.Some? ==>
      k in r.value.config.originalValues && r.value.config.originalValues[k] == app.table[k].value.value
    ensures r.Some? ==> forall k :: k in r.value.config.originalValues ==>
      k in app.config.originalValues || (k in app.table && app.table[k].value.Some?)
    ensures r.Some? ==> forall k :: k in app.config.originalValues && !(k in app.table && app.table[k].value.Some?) ==>
      k in r.value.config.originalValues && r.value.config.originalValues[k] == app.config.originalValues[k]
    ensures r.Some? ==> r.value.table == app.table && r.value.navigation == app.navigation
    ensures r.Some? ==> r.value.config.allItems == app.config.allItems && r.value.config.menuTree == app.config.menuTree
    ensures r.Some? ==> r.value.showSaveDialog == app.showSaveDialog && r.value.showHelpModal == app.showHelpModal
    ensures r.Some? ==> r.value.searchActive == app.searchActive
  {
    if !writeSucceeds then None
    else
      var stored := map k | k in app.table && app.table[k].value.Some? :: app.table[k].value.value;
      Some(app.(
        config := app.config.(modifiedSymbols := map[], originalValues := app.config.originalValues + stored),
        statusMessage := Some(" Configuration saved to .config")))
  }

  /** After a save, a stored value that is toggled away and back counts as unmodified again. */
  lemma SaveThenToggleBack(app: App, items: seq<MenuItem>, b: bool)
    requires SaveConfig(app, true).Some?
    requires var saved := SaveConfig(app, true).value;
      && saved.navigation.selectedIndex < |items|
      && items[saved.navigation.selectedIndex].value == Some(Bool(b))
      && Symbols.GetValue(saved.table, items[saved.navigation.selectedIndex].id) == Some(Serialise(Bool(b)))
    ensures var saved := SaveConfig(app, true).value;
      var sel := saved.navigation.selectedIndex;
      var twice := ToggleCurrentItem(ToggleCurrentItem(saved, items),
                                     items[sel := items[sel].(value := Some(Bool(!b)))]);
      |twice.config.modifiedSymbols| == 0
  {
    var saved := SaveConfig(app, true).value;
    var sel := saved.navigation.selectedIndex;
    var id := items[sel].id;
    ToggleBoolTwiceUnmarks(saved, items, b);
    var twice := ToggleCurrentItem(ToggleCurrentItem(saved, items),
                                   items[sel := items[sel].(value := Some(Bool(!b)))]);
    assert twice.config.modifiedSymbols.Keys == {} by {
      forall k | k in twice.config.modifiedSymbols ensures false {
      }
    }
  }

  // ---------------------------------------------------------------------
  // Key handling

  /** The list the cursor moves over: search results while a query is being typed, else the submenu. */
  function VisibleItems(app: App, env: Env): (items: seq<MenuItem>)
    ensures app.searchActive && |app.searchQuery| > 0 ==> items == env.searchResults
    ensures !app.searchActive || |app.searchQuery| == 0 ==> items == env.pathItems
  {
    if app.searchActive && |app.searchQuery| > 0 then env.searchResults else env.pathItems
  }

  function WithNavigation(app: App, nav: NavigationState): App {
    app.(navigation := nav)
  }

  /** `handle_save_dialog_key`. */
  function HandleSaveDialogKey(app: App, key: KeyCode, env: Env): (r: Step)
    ensures r.outcome == Quit ==> key in {Char('y'), Char('Y'), Char('n'), Char('N')}
    ensures r.outcome == Quit ==> !r.app.showSaveDialog
    ensures r.outcome == SaveFailed ==> r.app == app && !env.writeSucceeds
    ensures key in {Char('y'), Char('Y')} && env.writeSucceeds ==>
      r.outcome == Quit && |r.app.config.modifiedSymbols| == 0
    ensures key == Esc ==> r == Step(app.(showSaveDialog := false), Continue)
    ensures key !in {Char('y'), Char('Y'), Char('n'), Char('N'), Esc} ==> r == Step(app, Continue)
  {
    match key
    case Char(c) =>
      if c == 'y' || c == 'Y' then
        match SaveConfig(app, env.writeSucceeds)
        case None => Step(app, SaveFailed)
        case Some(saved) => Step(saved.(showSaveDialog := false), Quit)
      else if c == 'n' || c == 'N' then Step(app.(showSaveDialog := false), Quit)
      else Step(app, Continue)
    case Esc => Step(app.(showSaveDialog := false), Continue)
    case _ => Step(app, Continue)
  }

  /** `handle_search_key`. */
  function HandleSearchKey(app: App, key: KeyCode): (r: Step)
    ensures r.outcome == Continue
    ensures r.app.config == app.config && r.app.table == app.table
    ensures key.Char? ==>
      && r.app.searchQuery == app.searchQuery + [key.c] && r.app.searchActive == app.searchActive
      && r.app.navigation == app.navigation.(selectedIndex := 0)
    ensures key == Backspace ==>
      && (|app.searchQuery| > 0 ==> r.app.searchQuery + [app.searchQuery[|app.searchQuery| - 1]] == app.searchQuery)
      && (|app.searchQuery| == 0 ==> r.app.searchQuery == "")
      && r.app.searchActive == app.searchActive
      && r.app.navigation == app.navigation.(selectedIndex := 0)
    ensures key == Esc ==>
      !r.app.searchActive && r.app.searchQuery == "" && r.app.navigation.selectedIndex == 0 && r.app.focus == MenuTree
    ensures key == Enter ==>
      !r.app.searchActive && r.app.searchQuery == app.searchQuery && r.app.focus == MenuTree
  {
    match key
    case Esc =>
      Step(app.(searchActive := false, searchQuery := "", focus := MenuTree,
                navigation := app.navigation.(selectedIndex := 0)), Continue)
    case Enter => Step(app.(searchActive := false, focus := MenuTree), Continue)
    case Backspace =>
      var q := if |app.searchQuery| > 0 then app.searchQuery[..|app.searchQuery| - 1] else app.searchQuery;
      Step(app.(searchQuery := q, navigation := app.navigation.(selectedIndex := 0)), Continue)
    case Char(c) =>
      Step(app.(searchQuery := app.searchQuery + [c], navigation := app.navigation.(selectedIndex := 0)), Continue)
    case _ => Step(app, Continue)
  }

  /**
   * The cursor movement a menu key asks for, over a visible list of `len`
   * items, or None for a key that does not move the cursor.
   */
  function MenuMove(nav: NavigationState, key: KeyCode, len: nat, pathItems: seq<MenuItem>): (r: Option<NavigationState>)
    ensures r.Some? <==>
      (|| key in {Up, Down, Left, Right, Enter, Esc, PageUpKey, PageDownKey, Home, End}
       || key in {Char('k'), Char('j'), Char('h'), Char('l')})
    ensures r.Some? && nav.selectedIndex < len ==> r.value.selectedIndex < len
    ensures r.Some? && r.value.currentPath != nav.currentPath ==>
      key in {Left, Esc, Char('h'), Right, Enter, Char('l')}
    ensures key in {Up, Char('k')} ==> r == Some(MoveUp(nav))
    ensures key in {Down, Char('j')} ==> r == Some(MoveDown(nav, len))
    ensures key in {Left, Esc, Char('h')} ==> r == Some(GoBack(nav))
    ensures key in {Right, Enter, Char('l')} ==> r == Some(EnterSubmenu(nav, pathItems))
    ensures key == PageUpKey ==> r == Some(PageUp(nav))
    ensures key == PageDownKey ==> r == Some(PageDown(nav, len))
    ensures key == Home ==> r == Some(JumpToFirst(nav))
    ensures key == End ==> r == Some(JumpToLast(nav, len))
  {
    match key
    case Char(c) =>
      if c == 'k' then Some(MoveUp(nav))
      else if c == 'j' then Some(MoveDown(nav, len))
      else if c == 'h' then Some(GoBack(nav))
      else if c == 'l' then Some(EnterSubmenu(nav, pathItems))
      else None
    case Up => Some(MoveUp(nav))
    case Down => Some(MoveDown(nav, len))
    case Left => Some(GoBack(nav))
    case Esc => Some(GoBack(nav))
    case Right => Some(EnterSubmenu(nav, pathItems))
    case Enter => Some(EnterSubmenu(nav, pathItems))
    case PageUpKey => Some(PageUp(nav))
    case PageDownKey => Some(PageDown(nav, len))
    case Home => Some(JumpToFirst(nav))
    case End => Some(JumpToLast(nav, len))
    case _ => None
  }

  /** The menu's command characters: quit, save, help, search and the space-bar toggle. */
  function HandleMenuChar(app: App, c: char, env: Env): (r: Step)
    ensures r.outcome == Quit ==> (c == 'q' || c == 'Q') && |app.config.modifiedSymbols| == 0
    ensures r.outcome == SaveFailed ==> r.app == app && !env.writeSucceeds
    ensures r.app.table != app.table ==> c == ' '
    ensures c != ' ' && c != 's' && c != 'S' ==>
      r.app.config == app.config && r.app.table == app.table
    ensures c == '?' ==> r == Step(app.(showHelpModal := true), Continue)
    ensures c == '/' ==>
      r == Step(app.(searchActive := true, searchQuery := "", focus := SearchBar), Continue)
    ensures (c == 's' || c == 'S') && env.writeSucceeds ==> r == Step(SaveConfig(app, true).value, Continue)
    ensures c == ' ' ==> r == Step(ToggleCurrentItem(app, VisibleItems(app, env)), Continue)
  {
    if c == 'q' || c == 'Q' then
      if |app.config.modifiedSymbols| > 0 then Step(app.(showSaveDialog := true), Continue)
      else Step(app, Quit)
    else if c == 's' || c == 'S' then
      match SaveConfig(app, env.writeSucceeds)
      case None => Step(app, SaveFailed)
      case Some(saved) => Step(saved, Continue)
    else if c == '?' then Step(app.(showHelpModal := true), Continue)
    else if c == '/' then Step(app.(searchActive := true, searchQuery := "", focus := SearchBar), Continue)
    else if c == ' ' then Step(ToggleCurrentItem(app, VisibleItems(app, env)), Continue)
    else Step(app, Continue)
  }

  /** The main-menu keys, used when no modal is open and no search is active. */
  function HandleMenuKey(app: App, key: KeyCode, env: Env): (r: Step)
    ensures r.outcome == Quit ==> key in {Char('q'), Char('Q')} && |app.config.modifiedSymbols| == 0
    ensures r.outcome == SaveFailed ==> r.app == app && !env.writeSucceeds
    ensures r.app.table != app.table ==> key == Char(' ')
    ensures key != Char(' ') && key != Char('s') && key != Char('S') ==>
      r.app.config == app.config && r.app.table == app.table
    ensures var m := MenuMove(app.navigation, key, |VisibleItems(app, env)|, env.pathItems);
      m.Some? ==> r == Step(app.(navigation := m.value), Continue)
    ensures var m := MenuMove(app.navigation, key, |VisibleItems(app, env)|, env.pathItems);
      m.None? && key.Char? ==> r == HandleMenuChar(app, key.c, env)
    ensures var m := MenuMove(app.navigation, key, |VisibleItems(app, env)|, env.pathItems);
      m.None? && !key.Char? ==> r == Step(app, Continue)
  {
    match MenuMove(app.navigation, key, |VisibleItems(app, env)|, env.pathItems)
    case Some(nav) => Step(WithNavigation(app, nav), Continue)
    case None => if key.Char? then HandleMenuChar(app, key.c, env) else Step(app, Continue)
  }

  /** `handle_key`: the help modal first, then the save dialog, then search, then the menu. */
  function HandleKey(app: App, key: KeyCode, env: Env): (r: Step)
    ensures app.showHelpModal ==> r == Step(app.(showHelpModal := false), Continue)
    ensures r.outcome == Quit && |r.app.config.modifiedSymbols| > 0 ==>
      app.showSaveDialog && key in {Char('n'), Char('N')}
    ensures r.outcome == SaveFailed ==> r.app == app && !env.writeSucceeds
  {
    if app.showHelpModal then Step(app.(showHelpModal := false), Continue)
    else if app.showSaveDialog then HandleSaveDialogKey(app, key, env)
    else if app.searchActive then HandleSearchKey(app, key)
    else HandleMenuKey(app, key, env)
  }

  /** In the menu, q asks before quitting when something is unsaved and quits at once otherwise. */
  lemma QuitAsksWhenModified(app: App, env: Env, c: char)
    requires !app.showHelpModal && !app.showSaveDialog && !app.searchActive
    requires c == 'q' || c == 'Q'
    ensures |app.config.modifiedSymbols| > 0 ==>
      HandleKey(app, Char(c), env) == Step(app.(showSaveDialog := true), Continue)
    ensures |app.config.modifiedSymbols| == 0 ==> HandleKey(app, Char(c), env) == Step(app, Quit)
  {
  }

  /** In the save dialog, n quits without saving and Esc goes back to the menu. */
  lemma SaveDialogAnswers(app: App, env: Env)
    requires !app.showHelpModal && app.showSaveDialog
    ensures HandleKey(app, Char('n'), env) == Step(app.(showSaveDialog := false), Quit)
    ensures HandleKey(app, Esc, env) == Step(app.(showSaveDialog := false), Continue)
    ensures env.writeSucceeds ==>
      && HandleKey(app, Char('y'), env).outcome == Quit
      && |HandleKey(app, Char('y'), env).app.config.modifiedSymbols| == 0
  {
  }

  /** In search mode, Esc leaves search with an empty query at the first item. */
  lemma SearchEscapeResets(app: App, env: Env)
    requires !app.showHelpModal && !app.showSaveDialog && app.searchActive
    ensures var r := HandleKey(app, Esc, env);
      && r == Step(app.(searchActive := false, searchQuery := "", focus := MenuTree,
                        navigation := app.navigation.(selectedIndex := 0)), Continue)
  {
  }

  /** Saving with s and then pressing q quits straight away. */
  lemma SaveThenQuit(app: App, env: Env)
    requires !app.showHelpModal && !app.showSaveDialog && !app.searchActive && env.writeSucceeds
    ensures var saved := HandleKey(app, Char('s'), env);
      && saved.outcome == Continue
      && HandleKey(saved.app, Char('q'), env) == Step(saved.app, Quit)
  {
  }

  /** The symbol table only changes through the space bar in the menu. */
  lemma TableChangesOnlyBySpace(app: App, key: KeyCode, env: Env)
    ensures HandleKey(app, key, env).app.table != app.table ==>
      !app.showHelpModal && !app.showSaveDialog && !app.searchActive && key == Char(' ')
  {
  }

  /** Every key keeps pending modifications consistent with the remembered values and the table. */
  lemma {:induction false} HandleKeyKeepsConsistent(app: App, key: KeyCode, env: Env)
    requires Consistent(app)
    ensures Consistent(HandleKey(app, key, env).app)
  {
    if app.showHelpModal {
    } else if app.showSaveDialog {
      SaveDialogKeepsConsistent(app, key, env);
    } else if app.searchActive {
    } else {
      MenuKeyKeepsConsistent(app, key, env);
    }
  }

  lemma SaveKeepsConsistent(app: App)
    requires Consistent(app)
    ensures Consistent(SaveConfig(app, true).value)
  {
  }

  lemma SaveDialogKeepsConsistent(app: App, key: KeyCode, env: Env)
    requires Consistent(app)
    ensures Consistent(HandleSaveDialogKey(app, key, env).app)
  {
    if env.writeSucceeds {
      SaveKeepsConsistent(app);
    }
  }

  lemma MenuKeyKeepsConsistent(app: App, key: KeyCode, env: Env)
    requires Consistent(app)
    ensures Consistent(HandleMenuKey(app, key, env).app)
  {
    var r := HandleMenuKey(app, key, env);
    if key == Char(' ') {
      ToggleKeepsConsistent(app, VisibleItems(app, env));
      assert r == HandleMenuChar(app, ' ', env);
    } else if (key == Char('s') || key == Char('S')) && env.writeSucceeds {
      SaveKeepsConsistent(app);
      assert r == HandleMenuChar(app, key.c, env);
    } else {
      SameStateConsistent(app, r.app);
    }
  }

  /** Consistency speaks only of the configuration state and the table. */
  lemma SameStateConsistent(app: App, other: App)
    requires Consistent(app) && other.config == app.config && other.table == app.table
    ensures Consistent(other)
  {
  }

  /**
   * What drawing the menu tree does to the state before each key: a selection past
   * the end of a non-empty visible list is pulled back to its last item. Nothing
   * else the key rules read changes.
   */
  function ClampSelection(app: App, env: Env): (r: App)
    ensures r == app.(navigation := r.navigation)
    ensures r.navigation == app.navigation.(selectedIndex := r.navigation.selectedIndex)
    ensures VisibleItems(r, env) == VisibleItems(app, env)
    ensures |VisibleItems(app, env)| > 0 ==> r.navigation.selectedIndex < |VisibleItems(app, env)|
    ensures app.navigation.selectedIndex < |VisibleItems(app, env)| || |VisibleItems(app, env)| == 0 ==> r == app
    ensures r.navigation.selectedIndex <= app.navigation.selectedIndex
  {
    var len := |VisibleItems(app, env)|;
    if len > 0 && app.navigation.selectedIndex >= len then
      app.(navigation := app.navigation.(selectedIndex := len - 1))
    else app
  }

  /** Consistency holds after any sequence of keys, whatever each step's lists and write outcome. */
  lemma {:induction false} KeysKeepConsistent(app: App, events: seq<Event>)
    requires Consistent(app)
    ensures Consistent(RunKeys(app, events).app)
    decreases |events|
  {
    if |events| > 0 {
      var shown := ClampSelection(app, events[0].env);
      SameStateConsistent(app, shown);
      HandleKeyKeepsConsistent(shown, events[0].key, events[0].env);
      var r := HandleKey(shown, events[0].key, events[0].env);
      if r.outcome == Continue {
        KeysKeepConsistent(r.app, events[1..]);
      }
    }
  }

  /**
   * The event loop over a sequence of key presses, each seen with the lists
   * and write outcome of its own moment, stopping at the first Quit or error.
   * Each key is preceded by a draw, whose only effect on the state is `ClampSelection`.
   */
  function RunKeys(app: App, events: seq<Event>): (r: Step)
    ensures |events| == 0 ==> r == Step(app, Continue)
    ensures |events| > 0 && HandleKey(ClampSelection(app, events[0].env), events[0].key, events[0].env).outcome != Continue ==>
      r == HandleKey(ClampSelection(app, events[0].env), events[0].key, events[0].env)
    ensures r.outcome == SaveFailed ==> exists i :: 0 <= i < |events| && !events[i].env.writeSucceeds
    decreases |events|
  {
    if |events| == 0 then Step(app, Continue)
    else
      var r := HandleKey(ClampSelection(app, events[0].env), events[0].key, events[0].env);
      if r.outcome == Continue then RunKeys(r.app, events[1..]) else r
  }
}

=== FILE: decimal.dfy ===
/**
 * Decimal text for the 64-bit signed integers the menuconfig app keeps in
 * `ConfigValue::Int`: parsing (`str::parse::<i64>`) and formatting
 * (`i64::to_string`), restricted to plain ASCII decimal digits.
 */
module Decimal {
  import opened Options

  const I64Min: int := -0x8000_0000_0000_0000
  const I64Max: int := 0x7FFF_FFFF_FFFF_FFFF

  predicate InI64(i: int) {
    I64Min <= i <= I64Max
  }

  predicate IsDigit(c: char) {
    '0' <= c <= '9'
  }

  predicate AllDigits(s: string) {
    forall i :: 0 <= i < |s| ==> IsDigit(s[i])
  }

  function DigitChar(d: nat): (c: char)
    requires d < 10
    ensures IsDigit(c)
  {
    ('0' as int + d) as char
  }

  function DigitValue(c: char): (d: nat)
    requires IsDigit(c)
    ensures d < 10 && DigitChar(d) == c
  {
    (c as int - '0' as int)
  }

  /** The number a string of decimal digits denotes, most significant digit first. */
  function DigitsValue(s: string): nat
    requires AllDigits(s)
  {
    if |s| == 0 then 0
    else DigitsValue(s[..|s| - 1]) * 10 + DigitValue(s[|s| - 1])
  }

  /** The shortest decimal digit string of `n`. */
  function NatDigits(n: nat): (s: string)
    ensures |s| > 0 && AllDigits(s)
    ensures |s| > 1 ==> s[0] != '0'
  {
    if n < 10 then [DigitChar(n)] else NatDigits(n / 10) + [DigitChar(n % 10)]
  }

  /** `s` without its leading sign, if it has one. */
  function UnsignedPart(s: string): (d: string)
    ensures |s| > 0 && (s[0] == '-' || s[0] == '+') ==> [s[0]] + d == s
    ensures !(|s| > 0 && (s[0] == '-' || s[0] == '+')) ==> d == s
  {
    if |s| > 0 && (s[0] == '-' || s[0] == '+') then s[1..] else s
  }

  /** `s` starts with a minus sign. */
  predicate Negative(s: string) {
    |s| > 0 && s[0] == '-'
  }

  /** The number a sign and digits denote. */
  function SignedValue(s: string): int
    requires AllDigits(UnsignedPart(s))
  {
    var magnitude: int := DigitsValue(UnsignedPart(s));
    if Negative(s) then -magnitude else magnitude
  }

  /**
   * `s.parse::<i64>()`: an optional sign followed by at least one digit,
   * with no other character, whose value fits in 64 bits.
   */
  function ParseI64(s: string): (r: Option<int>)
    ensures r.Some? <==> (|UnsignedPart(s)| > 0 && AllDigits(UnsignedPart(s)) && InI64(SignedValue(s)))
    ensures r.Some? ==> r.value == SignedValue(s)
    ensures r.Some? ==> InI64(r.value)
    ensures r.Some? ==> |s| > 0 && (IsDigit(s[0]) || s[0] == '-' || s[0] == '+')
    ensures r.Some? ==> forall i :: 1 <= i < |s| ==> IsDigit(s[i])
    ensures |s| == 0 || s == "-" || s == "+" ==> r.None?
  {
    var digits := UnsignedPart(s);
    if |digits| == 0 || !AllDigits(digits) then None
    else
      var v := SignedValue(s);
      if InI64(v) then Some(v) else None
  }

  /** `i.to_string()`: a minus sign for negative numbers, then the shortest digits. */
  function FormatInt(i: int): (s: string)
    ensures |s| > 0
    ensures s[0] == '-' <==> i < 0
  {
    if i < 0 then "-" + NatDigits(-i) else NatDigits(i)
  }

  lemma {:induction false} DigitsRoundTrip(n: nat)
    ensures DigitsValue(NatDigits(n)) == n
  {
    var s := NatDigits(n);
    if n >= 10 {
      DigitsRoundTrip(n / 10);
      assert s[..|s| - 1] == NatDigits(n / 10);
    }
  }

  /** Formatting a 64-bit integer and parsing it back gives the integer. */
  lemma FormatThenParse(i: int)
    requires InI64(i)
    ensures ParseI64(FormatInt(i)) == Some(i)
  {
    if i < 0 {
      var d := NatDigits(-i);
      DigitsRoundTrip(-i);
      var s := "-" + d;
      assert s[0] == '-' && s[1..] == d;
    } else {
      DigitsRoundTrip(i);
    }
  }

  /**
   * Every digit string is accepted, with leading zeros and with or without a
   * plus sign, exactly when its value fits in 64 bits; a minus sign negates it.
   */
  lemma ParseSignedDigits(d: string)
    requires |d| > 0 && AllDigits(d)
    ensures ParseI64(d) == (if InI64(DigitsValue(d)) then Some(DigitsValue(d)) else None)
    ensures ParseI64("+" + d) == ParseI64(d)
    ensures ParseI64("-" + d) == (if InI64(-(DigitsValue(d) as int)) then Some(-(DigitsValue(d) as int)) else None)
  {
    assert d[0] != '-' && d[0] != '+' by { assert IsDigit(d[0]); }
    assert UnsignedPart("+" + d) == d;
    assert UnsignedPart("-" + d) == d;
  }

  /** Parsing never accepts text with a character other than a leading sign and digits. */
  lemma ParseRejectsStrayCharacter(s: string, k: nat)
    requires 1 <= k < |s| && !IsDigit(s[k])
    ensures ParseI64(s).None?
  {
  }
}

=== FILE: generator.dfy ===
/**
 * The build-artifact generators of `src/config/generator.rs`: `auto.conf`
 * (`NAME=value` lines for make) and `autoconf.h` (`#define` lines for C),
 * as pure functions from the symbol table and its enumeration order to the
 * lines written. Both skip unset and `"n"` symbols and both drop a leading
 * `CONFIG_` from the emitted name.
 */
module ConfigGenerator {
  import opened Options
  import opened Text
  import opened Symbols
  import ConfigReader
  import ConfigWriter

  /** The header of `autoconf.h`: a C comment and a blank line. */
  const HeaderH: seq<string> := ["/*", " * " + ConfigWriter.Banner, " */", ""]
  const HeaderHLength: nat := 4

  /** The name emitted for a symbol: one leading `CONFIG_` removed, if there is one. */
  function StripConfigPrefix(name: string): (r: string)
    ensures StartsWith(name, "CONFIG_") ==> "CONFIG_" + r == name
    ensures !StartsWith(name, "CONFIG_") ==> r == name
  {
    StripPrefix(name, "CONFIG_").GetOr(name)
  }

  /** Distinct names in `order` whose symbol is set and not `"n"`: those that get a line. */
  function EmittedNames(t: Table, order: seq<string>): (names: seq<string>)
    requires forall i :: 0 <= i < |order| ==> order[i] in t
    ensures |names| <= |order|
    ensures forall i :: 0 <= i < |names| ==> names[i] in order && ConfigWriter.IsSet(t[names[i]].value)
    ensures forall i :: 0 <= i < |order| && ConfigWriter.IsSet(t[order[i]].value) ==> order[i] in names
    ensures (forall a, b :: 0 <= a < b < |order| ==> order[a] != order[b]) ==>
              forall a, b :: 0 <= a < b < |names| ==> names[a] != names[b]
    decreases |order|
  {
    if |order| == 0 then []
    else
      var last := order[|order| - 1];
      var prefix := order[..|order| - 1];
      assert forall i :: 0 <= i < |prefix| ==> prefix[i] == order[i];
      var rest := EmittedNames(t, prefix);
      assert forall a, b :: 0 <= a < b < |prefix| && order[a] != order[b] ==> prefix[a] != prefix[b];
      if ConfigWriter.IsSet(t[last].value) then rest + [last] else rest
  }

  /** One `auto.conf` line: `NAME=value`, never quoted. */
  function AutoConfLine(name: string, v: string): string {
    name + "=" + v
  }

  /** One `autoconf.h` line: `1` for `y` and `m`, the quoted text for anything else. */
  function DefineLine(name: string, v: string): string {
    if IsEnabledValue(v) then "#define " + name + " 1"
    else "#define " + name + " \"" + v + "\""
  }

  /** The lines after the header: `line` applied to each emitted name and its value. */
  function EmittedLines(t: Table, names: seq<string>, line: (string, string) -> string): (lines: seq<string>)
    requires forall i :: 0 <= i < |names| ==> names[i] in t
    requires forall i :: 0 <= i < |names| ==> t[names[i]].value.Some?
    ensures |lines| == |names|
    ensures forall i :: 0 <= i < |names| ==> lines[i] == line(names[i], t[names[i]].value.value)
  {
    seq(|names|, i requires 0 <= i < |names| => line(names[i], t[names[i]].value.value))
  }

  /** `ConfigGenerator::generate_auto_conf`, with the emitted name computed by `nameOf`. */
  function AutoConfWith(t: Table, order: seq<string>, nameOf: string -> string): (lines: seq<string>)
    requires Enumerates(t, order)
    ensures |lines| == ConfigWriter.HeaderLength + |EmittedNames(t, order)|
    ensures lines[..ConfigWriter.HeaderLength] == ConfigWriter.Header
    ensures forall i :: 0 <= i < |EmittedNames(t, order)| ==>
              lines[ConfigWriter.HeaderLength + i] ==
              AutoConfLine(nameOf(EmittedNames(t, order)[i]), t[EmittedNames(t, order)[i]].value.value)
  {
    var body := EmittedLines(t, EmittedNames(t, order), (name, v) => AutoConfLine(nameOf(name), v));
    ConfigWriter.HeaderThenBody(ConfigWriter.Header, ConfigWriter.HeaderLength, body);
    ConfigWriter.Header + body
  }

  /** `ConfigGenerator::generate_autoconf_h`, with the emitted name computed by `nameOf`. */
  function AutoconfHWith(t: Table, order: seq<string>, nameOf: string -> string): (lines: seq<string>)
    requires Enumerates(t, order)
    ensures |lines| == HeaderHLength + |EmittedNames(t, order)|
    ensures lines[..HeaderHLength] == HeaderH
    ensures forall i :: 0 <= i < |EmittedNames(t, order)| ==>
              lines[HeaderHLength + i] ==
              DefineLine(nameOf(EmittedNames(t, order)[i]), t[EmittedNames(t, order)[i]].value.value)
  {
    var body := EmittedLines(t, EmittedNames(t, order), (name, v) => DefineLine(nameOf(name), v));
    ConfigWriter.HeaderThenBody(HeaderH, HeaderHLength, body);
    HeaderH + body
  }

  /** `auto.conf` as `generate_auto_conf` writes it. */
  function AutoConf(t: Table, order: seq<string>): (lines: seq<string>)
    requires Enumerates(t, order)
    ensures |lines| == ConfigWriter.HeaderLength + |SetNames(t)|
    ensures lines[..ConfigWriter.HeaderLength] == ConfigWriter.Header
  {
    EmittedCount(t, order);
    AutoConfWith(t, order, StripConfigPrefix)
  }

  /** `autoconf.h` as `generate_autoconf_h` writes it. */
  function AutoconfH(t: Table, order: seq<string>): (lines: seq<string>)
    requires Enumerates(t, order)
    ensures |lines| == HeaderHLength + |SetNames(t)|
    ensures lines[..HeaderHLength] == HeaderH
  {
    EmittedCount(t, order);
    AutoconfHWith(t, order, StripConfigPrefix)
  }

  /** The names of the symbols that get a line in either file. */
  function SetNames(t: Table): set<string> {
    set k | k in t && ConfigWriter.IsSet(t[k].value)
  }

  /** Exactly one line per set symbol, and never more lines than symbols. */
  lemma EmittedCount(t: Table, order: seq<string>)
    requires Enumerates(t, order)
    ensures |EmittedNames(t, order)| == |SetNames(t)| <= |t|
  {
    var names := EmittedNames(t, order);
    DistinctCard(names);
    assert (set k | k in names) == SetNames(t);
    SubsetCard(SetNames(t), t.Keys);
  }

  lemma SubsetCard<T>(a: set<T>, b: set<T>)
    requires a <= b
    ensures |a| <= |b|
  {
    assert b == a + (b - a);
  }

  /** The line `auto.conf` holds for a set symbol. */
  lemma AutoConfHasSetSymbol(t: Table, order: seq<string>, nameOf: string -> string, k: string)
    requires Enumerates(t, order)
    requires k in t && ConfigWriter.IsSet(t[k].value)
    ensures nameOf(k) + "=" + t[k].value.value in AutoConfWith(t, order, nameOf)[ConfigWriter.HeaderLength..]
  {
    var lines := AutoConfWith(t, order, nameOf);
    var names := EmittedNames(t, order);
    var i :| 0 <= i < |order| && order[i] == k;
    var e :| 0 <= e < |names| && names[e] == k;
    assert lines[ConfigWriter.HeaderLength..][e] == lines[ConfigWriter.HeaderLength + e];
  }

  /** Every body line of `auto.conf` is the line of some set symbol. */
  lemma AutoConfLineOrigin(t: Table, order: seq<string>, j: nat)
    requires Enumerates(t, order)
    requires ConfigWriter.HeaderLength <= j < |AutoConf(t, order)|
    ensures exists k :: k in SetNames(t) && AutoConf(t, order)[j] == StripConfigPrefix(k) + "=" + t[k].value.value
  {
    var lines := AutoConfWith(t, order, StripConfigPrefix);
    var names := EmittedNames(t, order);
    var e := j - ConfigWriter.HeaderLength;
    var k := names[e];
    assert lines[ConfigWriter.HeaderLength + e] == AutoConfLine(StripConfigPrefix(k), t[k].value.value);
    assert k in SetNames(t);
  }

  /**
   * `auto.conf`: the three-line header, then one `NAME=value` line (prefix
   * stripped, value unquoted) for each symbol that is set and not `"n"`, and
   * nothing else.
   */
  lemma AutoConfContents(t: Table, order: seq<string>)
    requires Enumerates(t, order)
    ensures AutoConf(t, order)[..ConfigWriter.HeaderLength] == ConfigWriter.Header
    ensures |AutoConf(t, order)| == ConfigWriter.HeaderLength + |SetNames(t)|
    ensures forall k :: k in t && ConfigWriter.IsSet(t[k].value) ==>
              StripConfigPrefix(k) + "=" + t[k].value.value in AutoConf(t, order)[ConfigWriter.HeaderLength..]
    ensures forall j :: ConfigWriter.HeaderLength <= j < |AutoConf(t, order)| ==>
              exists k :: k in SetNames(t) && AutoConf(t, order)[j] == StripConfigPrefix(k) + "=" + t[k].value.value
  {
    EmittedCount(t, order);
    forall k | k in t && ConfigWriter.IsSet(t[k].value)
      ensures StripConfigPrefix(k) + "=" + t[k].value.value in AutoConf(t, order)[ConfigWriter.HeaderLength..]
    {
      AutoConfHasSetSymbol(t, order, StripConfigPrefix, k);
    }
    forall j | ConfigWriter.HeaderLength <= j < |AutoConf(t, order)|
      ensures exists k :: k in SetNames(t) && AutoConf(t, order)[j] == StripConfigPrefix(k) + "=" + t[k].value.value
    {
      AutoConfLineOrigin(t, order, j);
    }
  }

  /** The line `autoconf.h` holds for a set symbol. */
  lemma AutoconfHHasSetSymbol(t: Table, order: seq<string>, nameOf: string -> string, k: string)
    requires Enumerates(t, order)
    requires k in t && ConfigWriter.IsSet(t[k].value)
    ensures DefineLine(nameOf(k), t[k].value.value) in AutoconfHWith(t, order, nameOf)[HeaderHLength..]
  {
    var lines := AutoconfHWith(t, order, nameOf);
    var names := EmittedNames(t, order);
    var i :| 0 <= i < |order| && order[i] == k;
    var e :| 0 <= e < |names| && names[e] == k;
    assert lines[HeaderHLength..][e] == lines[HeaderHLength + e];
  }

  /** Every body line of `autoconf.h` is the line of some set symbol. */
  lemma AutoconfHLineOrigin(t: Table, order: seq<string>, j: nat)
    requires Enumerates(t, order)
    requires HeaderHLength <= j < |AutoconfH(t, order)|
    ensures exists k :: k in SetNames(t) && AutoconfH(t, order)[j] == DefineLine(StripConfigPrefix(k), t[k].value.value)
  {
    var lines := AutoconfHWith(t, order, StripConfigPrefix);
    var names := EmittedNames(t, order);
    var e := j - HeaderHLength;
    var k := names[e];
    assert lines[HeaderHLength + e] == DefineLine(StripConfigPrefix(k), t[k].value.value);
    assert k in SetNames(t);
  }

  /**
   * `autoconf.h`: the four-line header ending in a blank line, then for each
   * set symbol one `#define NAME 1` when it is `y` or `m`, else
   * `#define NAME "value"` (integers too); unset and `"n"` symbols get no line.
   */
  lemma AutoconfHContents(t: Table, order: seq<string>)
    requires Enumerates(t, order)
    ensures AutoconfH(t, order)[..HeaderHLength] == HeaderH && AutoconfH(t, order)[3] == ""
    ensures |AutoconfH(t, order)| == HeaderHLength + |SetNames(t)|
    ensures forall k :: IsEnabled(t, k) ==>
              "#define " + StripConfigPrefix(k) + " 1" in AutoconfH(t, order)[HeaderHLength..]
    ensures forall k :: k in t && ConfigWriter.IsSet(t[k].value) && !IsEnabled(t, k) ==>
              "#define " + StripConfigPrefix(k) + " \"" + t[k].value.value + "\"" in AutoconfH(t, order)[HeaderHLength..]
    ensures forall j :: HeaderHLength <= j < |AutoconfH(t, order)| ==>
              exists k :: k in SetNames(t) && AutoconfH(t, order)[j] == DefineLine(StripConfigPrefix(k), t[k].value.value)
  {
    EmittedCount(t, order);
    assert AutoconfH(t, order)[3] == AutoconfH(t, order)[..HeaderHLength][3];
    forall k | k in t && ConfigWriter.IsSet(t[k].value)
      ensures DefineLine(StripConfigPrefix(k), t[k].value.value) in AutoconfH(t, order)[HeaderHLength..]
    {
      AutoconfHHasSetSymbol(t, order, StripConfigPrefix, k);
    }
    forall j | HeaderHLength <= j < |AutoconfH(t, order)|
      ensures exists k :: k in SetNames(t) && AutoconfH(t, order)[j] == DefineLine(StripConfigPrefix(k), t[k].value.value)
    {
      AutoconfHLineOrigin(t, order, j);
    }
  }

  /** Both generators emit as many symbol lines as each other. */
  lemma GeneratorsAgree(t: Table, order: seq<string>)
    requires Enumerates(t, order)
    ensures |AutoConf(t, order)| - ConfigWriter.HeaderLength == |AutoconfH(t, order)| - HeaderHLength
  {
  }

  /**
   * `auto.conf` holds a line for every entry that reading the `.config`
   * back yields, under the stripped name and with the value read.
   */
  lemma AutoConfMatchesConfigReadBack(t: Table, order: seq<string>)
    requires Enumerates(t, order) && ConfigWriter.WritableTable(t)
    ensures forall k :: k in ConfigReader.Read(ConfigWriter.Write(t, order)) ==>
              StripConfigPrefix(k) + "=" + ConfigReader.Read(ConfigWriter.Write(t, order))[k] in AutoConf(t, order)[ConfigWriter.HeaderLength..]
  {
    ConfigWriter.WriteThenRead(t, order);
    AutoConfContents(t, order);
  }

  /** The table the repository's integration test builds, cut down to one symbol. */
  function OneSymbolTable(k: string, ty: SymbolType, v: string): (t: Table)
    ensures Enumerates(t, [k])
    ensures k in t && t[k].value == Some(v)
  {
    SetValue(AddSymbol(New(), k, ty), k, v)
  }

  /**
   * For `CONFIG_X` set to `v`, `auto.conf` holds `X=v`, not the `CONFIG_X=v`
   * the repository's integration test looks for.
   */
  lemma PrefixDroppedFromAutoConf(k: string, ty: SymbolType, v: string)
    requires StartsWith(k, "CONFIG_") && v != "n"
    ensures AutoConf(OneSymbolTable(k, ty, v), [k]) == ConfigWriter.Header + [k[7..] + "=" + v]
    ensures k + "=" + v !in AutoConf(OneSymbolTable(k, ty, v), [k])
  {
    var t := OneSymbolTable(k, ty, v);
    var lines := AutoConf(t, [k]);
    assert EmittedNames(t, [k]) == [k];
    assert lines == ConfigWriter.Header + [k[7..] + "=" + v];
    var want := k + "=" + v;
    assert want[0] == 'C';
    assert |want| != |k[7..] + "=" + v|;
  }

  /**
   * For `CONFIG_X` set to `y`, `autoconf.h` holds `#define X 1`, not the
   * `#define CONFIG_X 1` the repository's integration test looks for.
   */
  lemma PrefixDroppedFromAutoconfH(k: string, ty: SymbolType)
    requires StartsWith(k, "CONFIG_")
    ensures AutoconfH(OneSymbolTable(k, ty, "y"), [k]) == HeaderH + ["#define " + k[7..] + " 1"]
    ensures "#define " + k + " 1" !in AutoconfH(OneSymbolTable(k, ty, "y"), [k])
  {
    var t := OneSymbolTable(k, ty, "y");
    var lines := AutoconfH(t, [k]);
    assert EmittedNames(t, [k]) == [k];
    assert lines == HeaderH + ["#define " + k[7..] + " 1"];
    var want := "#define " + k + " 1";
    assert want[0] == '#';
    assert |want| != |"#define " + k[7..] + " 1"|;
    assert HeaderH[0][0] == '/';
    assert HeaderH[1][0] == ' ';
    assert HeaderH[2][0] == ' ';
    forall j | 0 <= j < |lines| ensures lines[j] != want {
      if j < 4 {
        assert lines[j] == HeaderH[j];
      }
    }
  }

  /** The generators with the emitted name kept exactly as declared. */
  function AutoConfKeepingPrefix(t: Table, order: seq<string>): seq<string>
    requires Enumerates(t, order)
  {
    AutoConfWith(t, order, n => n)
  }

  function AutoconfHKeepingPrefix(t: Table, order: seq<string>): seq<string>
    requires Enumerates(t, order)
  {
    AutoconfHWith(t, order, n => n)
  }

  /**
   * Keeping the name gives the lines the integration test expects:
   * `CONFIG_X=v` in `auto.conf`, `#define CONFIG_X 1` for enabled symbols and
   * `#define CONFIG_X "v"` for the rest in `autoconf.h`.
   */
  lemma KeepingPrefixGivesExpectedLines(t: Table, order: seq<string>)
    requires Enumerates(t, order)
    ensures forall k :: k in t && ConfigWriter.IsSet(t[k].value) ==>
              k + "=" + t[k].value.value in AutoConfKeepingPrefix(t, order)[ConfigWriter.HeaderLength..]
    ensures forall k :: IsEnabled(t, k) ==>
              "#define " + k + " 1" in AutoconfHKeepingPrefix(t, order)[HeaderHLength..]
    ensures forall k :: k in t && ConfigWriter.IsSet(t[k].value) && !IsEnabled(t, k) ==>
              "#define " + k + " \"" + t[k].value.value + "\"" in AutoconfHKeepingPrefix(t, order)[HeaderHLength..]
  {
    forall k | k in t && ConfigWriter.IsSet(t[k].value)
      ensures k + "=" + t[k].value.value in AutoConfKeepingPrefix(t, order)[ConfigWriter.HeaderLength..]
      ensures DefineLine(k, t[k].value.value) in AutoconfHKeepingPrefix(t, order)[HeaderHLength..]
    {
      AutoConfHasSetSymbol(t, order, n => n, k);
      AutoconfHHasSetSymbol(t, order, n => n, k);
    }
  }
}

=== FILE: navigation.dfy ===
/**
 * The menuconfig cursor: the path of submenus entered so far, the selected
 * index in the visible list and the scroll offset, and the keys that move
 * them. The visible list itself is computed by code this model does not
 * contain, so every operation that needs it takes it (or its length) as a
 * parameter.
 */
module UiNavigation {
  import opened Options
  import Symbols
  import UiValues

  /** What an item stands for; menus, comments and choices are not told apart here. */
  datatype ItemKind =
    | Config(symbolType: Symbols.SymbolType)
    | MenuConfig(symbolType: Symbols.SymbolType)
    | OtherKind

  datatype MenuItem = MenuItem(
    id: string,
    kind: ItemKind,
    hasChildren: bool,
    value: Option<UiValues.ConfigValue>)

  datatype NavigationState = NavigationState(
    currentPath: seq<string>,
    selectedIndex: nat,
    scrollOffset: nat)

  /** The cursor a fresh app starts with: at the root, first item, no scroll. */
  const Start := NavigationState([], 0, 0)

  /** How far PageUp and PageDown move the selection. */
  const PageSize: nat := 10

  /** `move_up`: one item up, staying at the top once there. */
  function MoveUp(nav: NavigationState): (r: NavigationState)
    ensures r == nav.(selectedIndex := r.selectedIndex)
    ensures nav.selectedIndex > 0 ==> r.selectedIndex + 1 == nav.selectedIndex
    ensures nav.selectedIndex == 0 ==> r == nav
  {
    if nav.selectedIndex > 0 then nav.(selectedIndex := nav.selectedIndex - 1) else nav
  }

  /** `move_down` over a visible list of `len` items: one item down unless already on the last. */
  function MoveDown(nav: NavigationState, len: nat): (r: NavigationState)
    ensures r == nav.(selectedIndex := r.selectedIndex)
    ensures r.selectedIndex == nav.selectedIndex + 1 <==> nav.selectedIndex + 1 < len
    ensures r.selectedIndex != nav.selectedIndex + 1 ==> r == nav
    ensures nav.selectedIndex < len ==> r.selectedIndex < len
  {
    if len > 0 && nav.selectedIndex < len - 1 then nav.(selectedIndex := nav.selectedIndex + 1) else nav
  }

  /** `page_up`: ten items up, saturating at the top. */
  function PageUp(nav: NavigationState): (r: NavigationState)
    ensures r == nav.(selectedIndex := r.selectedIndex)
    ensures r.selectedIndex <= nav.selectedIndex
    ensures r.selectedIndex == 0 || r.selectedIndex + PageSize == nav.selectedIndex
    ensures nav.selectedIndex >= PageSize ==> r.selectedIndex + PageSize == nav.selectedIndex
  {
    nav.(selectedIndex := if nav.selectedIndex >= PageSize then nav.selectedIndex - PageSize else 0)
  }

  /** `page_down`: ten items down, clamped to the last item of a non-empty list. */
  function PageDown(nav: NavigationState, len: nat): (r: NavigationState)
    ensures r == nav.(selectedIndex := r.selectedIndex)
    ensures len == 0 ==> r == nav
    ensures len > 0 ==> r.selectedIndex < len
    ensures len > 0 ==> r.selectedIndex == len - 1 || r.selectedIndex == nav.selectedIndex + PageSize
    ensures nav.selectedIndex < len ==> nav.selectedIndex <= r.selectedIndex
  {
    if len > 0 then
      var target := nav.selectedIndex + PageSize;
      nav.(selectedIndex := if target < len - 1 then target else len - 1)
    else nav
  }

  /** `jump_to_first`. */
  function JumpToFirst(nav: NavigationState): (r: NavigationState)
    ensures r == nav.(selectedIndex := 0)
  {
    nav.(selectedIndex := 0)
  }

  /** `jump_to_last`: the last item of a non-empty list; nothing for an empty one. */
  function JumpToLast(nav: NavigationState, len: nat): (r: NavigationState)
    ensures r == nav.(selectedIndex := r.selectedIndex)
    ensures len > 0 ==> r.selectedIndex + 1 == len
    ensures len == 0 ==> r == nav
  {
    if len > 0 then nav.(selectedIndex := len - 1) else nav
  }

  /** The selected item exists and has a submenu. */
  predicate CanEnter(nav: NavigationState, items: seq<MenuItem>) {
    nav.selectedIndex < |items| && items[nav.selectedIndex].hasChildren
  }

  /** `enter_submenu`: descend into the selected item when it has children. */
  function EnterSubmenu(nav: NavigationState, items: seq<MenuItem>): (r: NavigationState)
    ensures CanEnter(nav, items) ==>
      r == NavigationState(nav.currentPath + [items[nav.selectedIndex].id], 0, 0)
    ensures !CanEnter(nav, items) ==> r == nav
  {
    if |items| == 0 || nav.selectedIndex >= |items| then nav
    else
      var item := items[nav.selectedIndex];
      if item.hasChildren then NavigationState(nav.currentPath + [item.id], 0, 0) else nav
  }

  /** `go_back`: leave the innermost submenu; at the root nothing happens. */
  function GoBack(nav: NavigationState): (r: NavigationState)
    ensures |nav.currentPath| == 0 ==> r == nav
    ensures |nav.currentPath| > 0 ==>
      && r.selectedIndex == 0 && r.scrollOffset == 0
      && r.currentPath + [nav.currentPath[|nav.currentPath| - 1]] == nav.currentPath
  {
    if |nav.currentPath| > 0 then
      NavigationState(nav.currentPath[..|nav.currentPath| - 1], 0, 0)
    else nav
  }

  function MoveUpTimes(nav: NavigationState, k: nat): NavigationState
    decreases k
  {
    if k == 0 then nav else MoveUpTimes(MoveUp(nav), k - 1)
  }

  function MoveDownTimes(nav: NavigationState, len: nat, k: nat): NavigationState
    decreases k
  {
    if k == 0 then nav else MoveDownTimes(MoveDown(nav, len), len, k - 1)
  }

  /** `k` presses of Up move the selection `k` items up, stopping at the top. */
  lemma {:induction false} MoveUpTimesSaturates(nav: NavigationState, k: nat)
    ensures MoveUpTimes(nav, k) ==
      nav.(selectedIndex := if nav.selectedIndex >= k then nav.selectedIndex - k else 0)
    decreases k
  {
    if k > 0 {
      MoveUpTimesSaturates(MoveUp(nav), k - 1);
    }
  }

  /** `k` presses of Down from an item of the list move `k` items down, stopping at the last. */
  lemma {:induction false} MoveDownTimesClamps(nav: NavigationState, len: nat, k: nat)
    requires nav.selectedIndex < len
    ensures MoveDownTimes(nav, len, k) ==
      nav.(selectedIndex := if nav.selectedIndex + k < len - 1 then nav.selectedIndex + k else len - 1)
    decreases k
  {
    if k > 0 {
      MoveDownTimesClamps(MoveDown(nav, len), len, k - 1);
    }
  }

  /** PageUp is ten presses of Up, and Home is as many presses as the index. */
  lemma PageUpIsRepeatedMoveUp(nav: NavigationState)
    ensures PageUp(nav) == MoveUpTimes(nav, PageSize)
    ensures JumpToFirst(nav) == MoveUpTimes(nav, nav.selectedIndex)
  {
    MoveUpTimesSaturates(nav, PageSize);
    MoveUpTimesSaturates(nav, nav.selectedIndex);
  }

  /** From an item of the list, PageDown is ten presses of Down and End is `len` presses. */
  lemma PageDownIsRepeatedMoveDown(nav: NavigationState, len: nat)
    requires nav.selectedIndex < len
    ensures PageDown(nav, len) == MoveDownTimes(nav, len, PageSize)
    ensures JumpToLast(nav, len) == MoveDownTimes(nav, len, len)
  {
    MoveDownTimesClamps(nav, len, PageSize);
    MoveDownTimesClamps(nav, len, len);
  }

  /** Leaving a submenu just entered returns to the enclosing path, at its first item. */
  lemma EnterThenGoBack(nav: NavigationState, items: seq<MenuItem>)
    requires CanEnter(nav, items)
    ensures GoBack(EnterSubmenu(nav, items)) == NavigationState(nav.currentPath, 0, 0)
  {
    var entered := EnterSubmenu(nav, items);
    assert entered.currentPath[..|entered.currentPath| - 1] == nav.currentPath;
  }
}

=== FILE: options.dfy ===
/** The optional value used wherever the Rust code returns `Option<T>`. */
module Options {

  datatype Option<+T> = None | Some(value: T) {

    /** The wrapped value, or `default` when there is none (Rust's `unwrap_or`). */
    function GetOr(default: T): T {
      match this
      case Some(v) => v
      case None => default
    }
  }
}

=== FILE: reader.dfy ===
/**
 * The `.config` reader of `src/config/reader.rs`, as a pure function from
 * the file's lines to the name -> value map it builds. Each line is first
 * classified on its own (`Classify`); the map is then the left-to-right fold
 * of those classifications, so a later line for the same name overwrites an
 * earlier one.
 *
 * `Classify` keeps the branch order of `ConfigReader::read`: the comment test comes before
 * the `# CONFIG_X is not set` test, which therefore never fires.
 * `ClassifyIntended` is the same classifier with the two tests swapped.
 */
module ConfigReader {
  import opened Options
  import opened Text

  /** What one line contributes to the map. */
  datatype LineKind = Skip | NotSet(name: string) | Assign(name: string, value: string)

  /** The name carried by a `# CONFIG_X is not set` line. */
  function NotSetName(line: string): string {
    TrimEndMatches(TrimStartMatches(line, "# "), " is not set")
  }

  /** The `NAME=value` branch: split at the first `=`, trim both sides, unquote the value. */
  function SplitAssignment(line: string): (k: LineKind)
    ensures k.Skip? <==> '=' !in line
    ensures !k.NotSet?
    ensures k.Assign? ==> NoEdge(k.name, IsSpace)
    ensures k.Assign? ==> Unquoted(k.value)
  {
    match Find(line, '=')
    case Some(pos) => Assign(Trim(line[..pos]), TrimMatches(Trim(line[pos + 1..]), '"'))
    case None => Skip
  }

  /** A trimmed line the reader discards before looking at its contents. */
  predicate IsBlankOrComment(line: string) {
    |line| == 0 || StartsWith(line, "#")
  }

  /** A trimmed line of the form `# CONFIG_X is not set`. */
  predicate IsNotSetLine(line: string) {
    StartsWith(line, "# CONFIG_") && EndsWith(line, " is not set")
  }

  /** Every not-set line already begins with `#`. */
  lemma NotSetLineIsComment(line: string)
    ensures IsNotSetLine(line) ==> IsBlankOrComment(line)
  {
    if IsNotSetLine(line) {
      assert line[..1] == line[..9][..1];
    }
  }

  /** One line as the reader treats it, in the branch order of `ConfigReader::read`. */
  function Classify(raw: string): (k: LineKind)
    ensures !k.NotSet?
    ensures k.Assign? ==> Unquoted(k.value)
  {
    var line := Trim(raw);
    NotSetLineIsComment(line);
    if IsBlankOrComment(line) then Skip
    else if IsNotSetLine(line) then NotSet(NotSetName(line))
    else SplitAssignment(line)
  }

  /**
   * Blank and `#` lines contribute nothing, nor does a line without `=`;
   * any other line assigns the trimmed text before its first `=`.
   */
  lemma ClassifyCases(raw: string)
    ensures IsBlankOrComment(Trim(raw)) ==> Classify(raw) == Skip
    ensures Classify(raw).Assign? <==> !IsBlankOrComment(Trim(raw)) && '=' in Trim(raw)
    ensures Classify(raw).Assign? ==> NoEdge(Classify(raw).name, IsSpace)
  {
  }

  /** The classifier with the not-set test ahead of the comment test. */
  function ClassifyIntended(raw: string): (k: LineKind)
    ensures k.NotSet? <==> IsNotSetLine(Trim(raw))
    ensures k.Assign? <==> !IsBlankOrComment(Trim(raw)) && '=' in Trim(raw)
  {
    var line := Trim(raw);
    NotSetLineIsComment(line);
    if IsNotSetLine(line) then NotSet(NotSetName(line))
    else if IsBlankOrComment(line) then Skip
    else SplitAssignment(line)
  }

  /** The map update one classified line performs. */
  function Step(m: map<string, string>, k: LineKind): map<string, string> {
    match k
    case Skip => m
    case NotSet(n) => m[n := "n"]
    case Assign(n, v) => m[n := v]
  }

  /** `k` binds `name` to `v`. */
  predicate Binds(k: LineKind, name: string, v: string) {
    k == Assign(name, v) || (k == NotSet(name) && v == "n")
  }

  /** `k` binds `name` to something. */
  predicate BindsName(k: LineKind, name: string) {
    (k.Assign? || k.NotSet?) && k.name == name
  }

  /** The map the reader loop builds from `lines`, one `Step` per line in order. */
  function Fold(lines: seq<string>, classify: string -> LineKind): (m: map<string, string>)
    ensures (forall i :: 0 <= i < |lines| ==> classify(lines[i]).Skip?) ==> m == map[]
    decreases |lines|
  {
    if |lines| == 0 then map[]
    else Step(Fold(lines[..|lines| - 1], classify), classify(lines[|lines| - 1]))
  }

  /** Every key of the folded map was bound, with the value it holds, by some line. */
  lemma {:induction false} FoldNeverInvents(lines: seq<string>, classify: string -> LineKind, name: string)
    requires name in Fold(lines, classify)
    ensures exists i :: 0 <= i < |lines| && Binds(classify(lines[i]), name, Fold(lines, classify)[name])
    decreases |lines|
  {
    var last := |lines| - 1;
    var prefix := lines[..last];
    if BindsName(classify(lines[last]), name) {
      assert Binds(classify(lines[last]), name, Fold(lines, classify)[name]);
    } else {
      FoldNeverInvents(prefix, classify, name);
      var i :| 0 <= i < |prefix| && Binds(classify(prefix[i]), name, Fold(prefix, classify)[name]);
      assert prefix[i] == lines[i];
    }
  }

  /** `ConfigReader::read`, after the file has been split into lines. */
  function Read(lines: seq<string>): (m: map<string, string>)
    ensures forall name :: name in m ==>
              exists i :: 0 <= i < |lines| && Classify(lines[i]) == Assign(name, m[name])
    ensures forall name :: name in m ==> Unquoted(m[name])
  {
    ReadNeverInvents(lines);
    Fold(lines, Classify)
  }

  lemma ReadNeverInvents(lines: seq<string>)
    ensures forall name :: name in Fold(lines, Classify) ==>
              exists i :: 0 <= i < |lines| && Classify(lines[i]) == Assign(name, Fold(lines, Classify)[name])
    ensures forall name :: name in Fold(lines, Classify) ==> Unquoted(Fold(lines, Classify)[name])
  {
    var m := Fold(lines, Classify);
    forall name | name in m
      ensures exists i :: 0 <= i < |lines| && Classify(lines[i]) == Assign(name, m[name])
      ensures Unquoted(m[name])
    {
      FoldNeverInvents(lines, Classify, name);
      var i :| 0 <= i < |lines| && Binds(Classify(lines[i]), name, m[name]);
      assert Classify(lines[i]) == Assign(name, m[name]);
    }
  }

  /** The reader with the not-set branch reachable. */
  function ReadIntended(lines: seq<string>): map<string, string> {
    Fold(lines, ClassifyIntended)
  }

  /**
   * The last line that binds a name decides its value; a name no line binds
   * is absent.
   */
  lemma {:induction false} LastBindingWins(lines: seq<string>, classify: string -> LineKind,
                                           i: nat, name: string, v: string)
    requires i < |lines| && Binds(classify(lines[i]), name, v)
    requires forall j :: i < j < |lines| ==> !BindsName(classify(lines[j]), name)
    ensures name in Fold(lines, classify) && Fold(lines, classify)[name] == v
    decreases |lines|
  {
    var last := |lines| - 1;
    var prefix := lines[..last];
    StepEffect(Fold(prefix, classify), classify(lines[last]), name);
    if i < last {
      forall j | i < j < |prefix| ensures !BindsName(classify(prefix[j]), name) {
        assert prefix[j] == lines[j];
      }
      assert prefix[i] == lines[i];
      LastBindingWins(prefix, classify, i, name, v);
    }
  }

  /** One line's update binds the name it names and leaves every other name as it was. */
  lemma StepEffect(m: map<string, string>, k: LineKind, name: string)
    ensures BindsName(k, name) ==> name in Step(m, k) && Binds(k, name, Step(m, k)[name])
    ensures !BindsName(k, name) ==> (name in Step(m, k) <==> name in m)
    ensures !BindsName(k, name) && name in m ==> Step(m, k)[name] == m[name]
  {
  }

  /** A name is read exactly when some line binds it. */
  lemma {:induction false} BoundIffSomeLineBinds(lines: seq<string>, classify: string -> LineKind, name: string)
    ensures name in Fold(lines, classify) <==> exists i :: 0 <= i < |lines| && BindsName(classify(lines[i]), name)
    decreases |lines|
  {
    if |lines| > 0 {
      var last := |lines| - 1;
      var prefix := lines[..last];
      BoundIffSomeLineBinds(prefix, classify, name);
      if exists i :: 0 <= i < |prefix| && BindsName(classify(prefix[i]), name) {
        var i :| 0 <= i < |prefix| && BindsName(classify(prefix[i]), name);
        assert lines[i] == prefix[i];
      }
      if exists i :: 0 <= i < |lines| && BindsName(classify(lines[i]), name) {
        var i :| 0 <= i < |lines| && BindsName(classify(lines[i]), name);
        if i < last { assert prefix[i] == lines[i]; }
      }
    }
  }

  /** Reading `a` then `b` is reading `b` on top of what `a` produced. */
  lemma {:induction false} FoldAppend(a: seq<string>, b: seq<string>, classify: string -> LineKind)
    requires forall i :: 0 <= i < |b| ==> classify(b[i]) == Skip
    ensures Fold(a + b, classify) == Fold(a, classify)
    decreases |b|
  {
    if |b| > 0 {
      var ab := a + b;
      var b' := b[..|b| - 1];
      assert ab[..|ab| - 1] == a + b';
      assert ab[|ab| - 1] == b[|b| - 1];
      assert classify(b[|b| - 1]) == Skip;
      assert Fold(ab, classify) == Fold(a + b', classify);
      assert forall i :: 0 <= i < |b'| ==> b'[i] == b[i];
      FoldAppend(a, b', classify);
    } else {
      assert a + b == a;
    }
  }

  /** A `NAME=rest` line, with no `=` in `NAME`, is read as NAME -> unquoted rest. */
  lemma ClassifyAssignmentLine(name: string, rest: string)
    requires '=' !in name
    requires |name| > 0 ==> !IsSpace(name[0]) && name[0] != '#'
    requires |rest| > 0 ==> !IsSpace(rest[|rest| - 1])
    ensures Classify(name + "=" + rest) == Assign(Trim(name), TrimMatches(Trim(rest), '"'))
  {
    var line := name + "=" + rest;
    AssignmentLineIsTrimmed(name, rest);
    NotSetLineIsComment(line);
    SplitAssignmentLine(name, rest);
  }

  lemma AssignmentLineIsTrimmed(name: string, rest: string)
    requires |name| > 0 ==> !IsSpace(name[0]) && name[0] != '#'
    requires |rest| > 0 ==> !IsSpace(rest[|rest| - 1])
    ensures Trim(name + "=" + rest) == name + "=" + rest
    ensures !IsBlankOrComment(name + "=" + rest)
  {
    var line := name + "=" + rest;
    assert line[0] == (if |name| > 0 then name[0] else '=');
    assert line[|line| - 1] == (if |rest| > 0 then rest[|rest| - 1] else '=');
    assert NoEdge(line, IsSpace);
  }

  lemma SplitAssignmentLine(name: string, rest: string)
    requires '=' !in name
    ensures SplitAssignment(name + "=" + rest) == Assign(Trim(name), TrimMatches(Trim(rest), '"'))
  {
    var line := name + "=" + rest;
    FindAfter(name, rest, '=');
    assert line[..|name|] == name;
    assert line[|name| + 1..] == rest;
  }

  /** The first `c` in `a + [c] + b` sits right after `a` when `a` holds no `c`. */
  lemma FindAfter(a: string, b: string, c: char)
    requires c !in a
    ensures Find(a + [c] + b, c) == Some(|a|)
  {
    var s := a + [c] + b;
    assert s[|a|] == c;
    assert forall j :: 0 <= j < |a| ==> s[j] == a[j];
  }

  /** A line that begins with `#` is dropped by the reader, whatever follows. */
  lemma CommentLineSkipped(line: string)
    requires |line| > 0 && line[0] == '#'
    ensures Classify(line) == Skip
  {
    assert TrimLeft(line, IsSpace) == line;
    var trimmed := Trim(line);
    assert trimmed == TrimRight(line, IsSpace);
    assert trimmed[0] == '#' && trimmed[..1] == "#";
    ClassifyCases(line);
  }

  /** Off the not-set lines, the corrected classifier agrees with the one as written. */
  lemma IntendedAgreesOffNotSet(raw: string)
    requires !IsNotSetLine(Trim(raw))
    ensures ClassifyIntended(raw) == Classify(raw)
  {
    NotSetLineIsComment(Trim(raw));
  }

  /** The corrected classifier reads `# CONFIG_X is not set` as X -> `"n"`. */
  lemma NotSetLineReadIntended(name: string)
    requires StartsWith(name, "CONFIG_") && !EndsWith(name, " is not set")
    ensures ClassifyIntended("# " + name + " is not set") == NotSet(name)
  {
    NotSetLineShape(name);
    NotSetLineName(name);
  }

  /** A written not-set line is already trimmed and has the not-set form. */
  lemma NotSetLineShape(name: string)
    requires StartsWith(name, "CONFIG_")
    ensures Trim("# " + name + " is not set") == "# " + name + " is not set"
    ensures IsNotSetLine("# " + name + " is not set")
  {
    var line := "# " + name + " is not set";
    assert line[0] == '#' && line[|line| - 1] == 't';
    ConcatPrefix("# " + name, " is not set", 9);
    ConcatPrefixInto("# ", name, 7);
    assert line[..9] == "# CONFIG_";
  }

  /** Stripping the not-set decoration from a written not-set line gives the name back. */
  lemma NotSetLineName(name: string)
    requires StartsWith(name, "CONFIG_") && !EndsWith(name, " is not set")
    ensures NotSetName("# " + name + " is not set") == name
  {
    var line := "# " + name + " is not set";
    var tail := name + " is not set";
    assert line[2..] == tail;
    assert StartsWith(line, "# ");
    assert tail[0] == 'C';
    assert TrimStartMatches(line, "# ") == TrimStartMatches(tail, "# ") == tail;
    assert tail[..|tail| - 11] == name;
    assert TrimEndMatches(tail, " is not set") == TrimEndMatches(name, " is not set") == name;
  }
}

=== FILE: symbol.dfy ===
/**
 * The symbol table of `src/kconfig/symbol.rs`: a finite map from a symbol's
 * name to its declared type, its current value as a raw string (if any) and
 * its choice flag. The Rust `HashMap` becomes a Dafny `map`; its unordered
 * iteration (`all_symbols`) becomes any sequence that enumerates the keys
 * once each (`Enumerates`).
 */
module Symbols {
  import opened Options

  /** The declared type of a Kconfig symbol. */
  datatype SymbolType = Bool | Tristate | String | Int | Hex

  datatype Symbol = Symbol(name: string, symbolType: SymbolType, value: Option<string>, isChoice: bool)

  type Table = map<string, Symbol>

  /** Every entry is stored under its own name, as `add_symbol` does. */
  predicate WellKeyed(t: Table) {
    forall k :: k in t ==> t[k].name == k
  }

  /** A raw value that reads as enabled: `"y"` or `"m"`. */
  predicate IsEnabledValue(v: string) {
    v == "y" || v == "m"
  }

  /** `SymbolTable::new`: the empty table. */
  function New(): (t: Table)
    ensures |t| == 0 && WellKeyed(t)
  {
    map[]
  }

  /**
   * `SymbolTable::add_symbol`: declares `name` with type `ty`, unset and not
   * a choice; an existing declaration is left exactly as it was.
   */
  function AddSymbol(t: Table, name: string, ty: SymbolType): (r: Table)
    ensures name in r && r.Keys == t.Keys + {name}
    ensures name in t ==> r == t
    ensures name !in t ==> r[name] == Symbol(name, ty, None, false)
    ensures forall k :: k in t ==> r[k] == t[k]
    ensures WellKeyed(t) ==> WellKeyed(r)
  {
    if name in t then t else t[name := Symbol(name, ty, None, false)]
  }

  /**
   * `SymbolTable::set_value`: replaces the value of a declared symbol; an
   * undeclared name leaves the table unchanged.
   */
  function SetValue(t: Table, name: string, v: string): (r: Table)
    ensures r.Keys == t.Keys
    ensures name !in t ==> r == t
    ensures name in t ==> r[name].value == Some(v)
    ensures name in t ==> r[name].name == t[name].name && r[name].symbolType == t[name].symbolType
    ensures name in t ==> r[name].isChoice == t[name].isChoice
    ensures forall k :: k in t && k != name ==> r[k] == t[k]
    ensures WellKeyed(t) ==> WellKeyed(r)
  {
    if name in t then t[name := t[name].(value := Some(v))] else t
  }

  /** `SymbolTable::get_value`: the stored value, `None` when unset or undeclared. */
  function GetValue(t: Table, name: string): (r: Option<string>)
    ensures name !in t ==> r == None
    ensures name in t ==> r == t[name].value
  {
    if name in t then t[name].value else None
  }

  /** `SymbolTable::is_enabled`: declared, set, and set to `"y"` or `"m"`. */
  function IsEnabled(t: Table, name: string): (r: bool)
    ensures r <==> name in t && t[name].value.Some? && IsEnabledValue(t[name].value.value)
  {
    match GetValue(t, name)
    case Some(v) => IsEnabledValue(v)
    case None => false
  }

  /** `SymbolTable::get_symbol`. */
  function GetSymbol(t: Table, name: string): (r: Option<Symbol>)
    ensures r.Some? <==> name in t
    ensures r.Some? ==> r.value == t[name]
  {
    if name in t then Some(t[name]) else None
  }

  /** `order` lists every key of `t` exactly once: one possible `all_symbols` iteration. */
  predicate Enumerates(t: Table, order: seq<string>) {
    && (forall i, j :: 0 <= i < j < |order| ==> order[i] != order[j])
    && (forall k :: k in t ==> k in order)
    && (forall i :: 0 <= i < |order| ==> order[i] in t)
  }

  /** The elements of a duplicate-free sequence are as many as its length. */
  lemma {:induction false} DistinctCard(order: seq<string>)
    requires forall i, j :: 0 <= i < j < |order| ==> order[i] != order[j]
    ensures |set k | k in order| == |order|
  {
    if |order| > 0 {
      var rest := order[1..];
      DistinctCard(rest);
      assert (set k | k in order) == (set k | k in rest) + {order[0]};
      assert order[0] !in rest by {
        forall j | 0 <= j < |rest| ensures rest[j] != order[0] {
          assert rest[j] == order[j + 1];
        }
      }
    }
  }

  /** Any enumeration of the table visits exactly as many names as the table holds. */
  lemma EnumerationLength(t: Table, order: seq<string>)
    requires Enumerates(t, order)
    ensures |order| == |t|
  {
    DistinctCard(order);
    assert t.Keys == set k | k in order;
  }

  /** The table-level operations `SymbolTable` exposes for mutation. */
  datatype Op = Add(name: string, ty: SymbolType) | Set(name: string, v: string)

  function Apply(t: Table, op: Op): Table {
    match op
    case Add(n, ty) => AddSymbol(t, n, ty)
    case Set(n, v) => SetValue(t, n, v)
  }

  function ApplyAll(t: Table, ops: seq<Op>): Table
    decreases |ops|
  {
    if |ops| == 0 then t else ApplyAll(Apply(t, ops[0]), ops[1..])
  }

  /**
   * The key set only ever grows through `add_symbol`: after any sequence of
   * operations the declared names are the initial ones plus those added.
   */
  lemma {:induction false} KeysGrowOnlyByAdd(t: Table, ops: seq<Op>)
    ensures ApplyAll(t, ops).Keys == t.Keys + (set i | 0 <= i < |ops| && ops[i].Add? :: ops[i].name)
    decreases |ops|
  {
    if |ops| > 0 {
      var t' := Apply(t, ops[0]);
      KeysGrowOnlyByAdd(t', ops[1..]);
      var added := set i | 0 <= i < |ops| && ops[i].Add? :: ops[i].name;
      var added' := set i | 0 <= i < |ops[1..]| && ops[1..][i].Add? :: ops[1..][i].name;
      assert added == (if ops[0].Add? then {ops[0].name} else {}) + added' by {
        forall n | n in added ensures n in (if ops[0].Add? then {ops[0].name} else {}) + added' {
          var i :| 0 <= i < |ops| && ops[i].Add? && ops[i].name == n;
          if i > 0 { assert ops[1..][i - 1] == ops[i]; }
        }
        forall n | n in added' ensures n in added {
          var i :| 0 <= i < |ops[1..]| && ops[1..][i].Add? && ops[1..][i].name == n;
          assert ops[i + 1] == ops[1..][i];
        }
      }
    }
  }

  /** Every table built from `new` by these operations stores each symbol under its own name. */
  lemma {:induction false} OperationsKeepWellKeyed(t: Table, ops: seq<Op>)
    requires WellKeyed(t)
    ensures WellKeyed(ApplyAll(t, ops))
    decreases |ops|
  {
    if |ops| > 0 {
      OperationsKeepWellKeyed(Apply(t, ops[0]), ops[1..]);
    }
  }

  /** Redeclaring a name, with any type, keeps the first declaration. */
  lemma FirstDeclarationWins(t: Table, name: string, ty1: SymbolType, ty2: SymbolType)
    ensures AddSymbol(AddSymbol(t, name, ty1), name, ty2) == AddSymbol(t, name, ty1)
    ensures name !in t ==> AddSymbol(AddSymbol(t, name, ty1), name, ty2)[name].symbolType == ty1
  {
  }

  /** What `get_value` and `is_enabled` observe right after `set_value`. */
  lemma SetThenObserve(t: Table, name: string, v: string, other: string)
    ensures GetValue(SetValue(t, name, v), name) == (if name in t then Some(v) else None)
    ensures IsEnabled(SetValue(t, name, v), name) <==> name in t && IsEnabledValue(v)
    ensures other != name ==> GetValue(SetValue(t, name, v), other) == GetValue(t, other)
    ensures other != name ==> IsEnabled(SetValue(t, name, v), other) == IsEnabled(t, other)
  {
  }
}

=== FILE: text.dfy ===
/**
 * String helpers with the meaning of the Rust standard-library methods the
 * configuration code calls: `trim`, `trim_matches`, `starts_with`,
 * `ends_with`, `find`, `strip_prefix`, `trim_start_matches` and
 * `trim_end_matches`. Whitespace is the ASCII subset of Rust's
 * `char::is_whitespace`.
 */
module Text {
  import opened Options

  /** ASCII characters that Rust's `char::is_whitespace` accepts. */
  predicate IsSpace(c: char) {
    c == ' ' || c == '\t' || c == '\n' || c == '\r' || c == '\U{000B}' || c == '\U{000C}'
  }

  /** Neither end of `s` is a character that `drop` would remove. */
  predicate NoEdge(s: string, drop: char -> bool) {
    |s| == 0 || (!drop(s[0]) && !drop(s[|s| - 1]))
  }

  /** `s` with every leading character satisfying `drop` removed. */
  function TrimLeft(s: string, drop: char -> bool): (r: string)
    ensures |r| <= |s| && r == s[|s| - |r|..]
    ensures |r| == 0 || !drop(r[0])
    ensures forall i :: 0 <= i < |s| - |r| ==> drop(s[i])
    decreases |s|
  {
    if |s| > 0 && drop(s[0]) then TrimLeft(s[1..], drop) else s
  }

  /** `s` with every trailing character satisfying `drop` removed. */
  function TrimRight(s: string, drop: char -> bool): (r: string)
    ensures |r| <= |s| && r == s[..|r|]
    ensures |r| == 0 || !drop(r[|r| - 1])
    ensures forall i :: |r| <= i < |s| ==> drop(s[i])
    decreases |s|
  {
    if |s| > 0 && drop(s[|s| - 1]) then TrimRight(s[..|s| - 1], drop) else s
  }

  /** Both ends trimmed: the pattern form of Rust's `trim_matches`. */
  function TrimWith(s: string, drop: char -> bool): (r: string)
    ensures |r| <= |s|
    ensures NoEdge(r, drop)
    ensures NoEdge(s, drop) ==> r == s
  {
    TrimRight(TrimLeft(s, drop), drop)
  }

  /** Trimming keeps one contiguous slice of `s` and removes only droppable characters around it. */
  lemma TrimWithKeepsSlice(s: string, drop: char -> bool)
    ensures exists a, b :: 0 <= a <= b <= |s| && TrimWith(s, drop) == s[a..b] &&
              forall i :: 0 <= i < |s| && (i < a || b <= i) ==> drop(s[i])
  {
    var left := TrimLeft(s, drop);
    var a := |s| - |left|;
    var b := a + |TrimRight(left, drop)|;
    TrimmedEdges(s, left, TrimRight(left, drop), drop);
    assert TrimWith(s, drop) == s[a..b];
  }

  /** The slice bounds of a left trim followed by a right trim. */
  lemma TrimmedEdges(s: string, left: string, r: string, drop: char -> bool)
    requires |left| <= |s| && left == s[|s| - |left|..]
    requires forall i :: 0 <= i < |s| - |left| ==> drop(s[i])
    requires |r| <= |left| && r == left[..|r|]
    requires forall i :: |r| <= i < |left| ==> drop(left[i])
    ensures r == s[|s| - |left|..|s| - |left| + |r|]
    ensures forall i :: 0 <= i < |s| && (i < |s| - |left| || |s| - |left| + |r| <= i) ==> drop(s[i])
  {
    var a := |s| - |left|;
    forall i | 0 <= i < |s| && (i < a || a + |r| <= i) ensures drop(s[i]) {
      if a + |r| <= i {
        assert s[i] == left[i - a];
      }
    }
  }

  /** `trim_matches(c)` keeps one contiguous slice of `s` and removes only copies of `c` around it. */
  lemma TrimMatchesKeepsSlice(s: string, c: char)
    ensures exists a, b :: 0 <= a <= b <= |s| && TrimMatches(s, c) == s[a..b] &&
              forall i :: 0 <= i < |s| && (i < a || b <= i) ==> s[i] == c
  {
    TrimWithKeepsSlice(s, Is(c));
  }

  /** Rust's `str::trim` restricted to ASCII whitespace. */
  function Trim(s: string): (r: string)
    ensures NoEdge(r, IsSpace)
    ensures NoEdge(s, IsSpace) ==> r == s
  {
    TrimWith(s, IsSpace)
  }

  /** The pattern that matches exactly the character `c`. */
  function Is(c: char): (p: char -> bool)
    ensures forall x :: p(x) <==> x == c
  {
    x => x == c
  }

  /** Rust's `str::trim_matches(c)` for a single character `c`. */
  function TrimMatches(s: string, c: char): (r: string)
    ensures |r| == 0 || (r[0] != c && r[|r| - 1] != c)
    ensures (|s| == 0 || (s[0] != c && s[|s| - 1] != c)) ==> r == s
  {
    TrimWith(s, Is(c))
  }

  /** Neither end of `v` is a double quote. */
  predicate Unquoted(v: string) {
    |v| == 0 || (v[0] != '"' && v[|v| - 1] != '"')
  }

  /** Trimming a value wrapped in one removable character on each side gives the value back. */
  lemma TrimWithSurrounded(v: string, d: char, drop: char -> bool)
    requires drop(d) && NoEdge(v, drop)
    ensures TrimWith([d] + v + [d], drop) == v
  {
    var q := [d] + v + [d];
    if |v| == 0 {
      assert q[1..] == [d] && [d][1..] == [];
      assert TrimLeft(q, drop) == TrimLeft([d], drop) == [];
    } else {
      assert q[1..] == v + [d];
      assert TrimLeft(v + [d], drop) == v + [d];
      assert TrimLeft(q, drop) == v + [d];
      assert (v + [d])[..|v|] == v;
      assert TrimRight(v + [d], drop) == TrimRight(v, drop) == v;
    }
  }

  /** Removing the double quotes put around an unquoted value gives the value back. */
  lemma TrimMatchesQuoted(v: string)
    requires Unquoted(v)
    ensures TrimMatches("\"" + v + "\"", '"') == v
  {
    assert "\"" + v + "\"" == ['"'] + v + ['"'];
    TrimWithSurrounded(v, '"', Is('"'));
  }

  /** A prefix of `a + b` no longer than `a` is a prefix of `a`. */
  lemma ConcatPrefix(a: string, b: string, n: nat)
    requires n <= |a|
    ensures (a + b)[..n] == a[..n]
  {
  }

  /** A prefix of `a + b` longer than `a` is `a` followed by a prefix of `b`. */
  lemma ConcatPrefixInto(a: string, b: string, k: nat)
    requires k <= |b|
    ensures (a + b)[..|a| + k] == a + b[..k]
  {
  }

  predicate StartsWith(s: string, prefix: string) {
    |prefix| <= |s| && s[..|prefix|] == prefix
  }

  predicate EndsWith(s: string, suffix: string) {
    |suffix| <= |s| && s[|s| - |suffix|..] == suffix
  }

  /** Index of the first occurrence of `c` in `s` (Rust's `str::find` on a char). */
  function Find(s: string, c: char): (r: Option<nat>)
    ensures r.Some? ==> r.value < |s| && s[r.value] == c
    ensures r.Some? ==> forall j :: 0 <= j < r.value ==> s[j] != c
    ensures r.None? ==> forall j :: 0 <= j < |s| ==> s[j] != c
    decreases |s|
  {
    if |s| == 0 then None
    else if s[0] == c then Some(0)
    else match Find(s[1..], c)
      case Some(i) => Some(i + 1)
      case None => None
  }

  /** Rust's `str::strip_prefix`: the rest of `s` after `prefix`, if `s` starts with it. */
  function StripPrefix(s: string, prefix: string): (r: Option<string>)
    ensures r.Some? <==> StartsWith(s, prefix)
    ensures r.Some? ==> prefix + r.value == s
  {
    if StartsWith(s, prefix) then Some(s[|prefix|..]) else None
  }

  /** Rust's `str::trim_start_matches` on a string pattern: strips `pat` repeatedly. */
  function TrimStartMatches(s: string, pat: string): (r: string)
    ensures |r| <= |s| && r == s[|s| - |r|..]
    ensures |pat| > 0 ==> !StartsWith(r, pat)
    ensures !StartsWith(s, pat) ==> r == s
    decreases |s|
  {
    if |pat| > 0 && StartsWith(s, pat) then TrimStartMatches(s[|pat|..], pat) else s
  }

  /** Rust's `str::trim_end_matches` on a string pattern: strips `pat` repeatedly. */
  function TrimEndMatches(s: string, pat: string): (r: string)
    ensures |r| <= |s| && r == s[..|r|]
    ensures |pat| > 0 ==> !EndsWith(r, pat)
    ensures !EndsWith(s, pat) ==> r == s
    decreases |s|
  {
    if |pat| > 0 && EndsWith(s, pat) then TrimEndMatches(s[..|s| - |pat|], pat) else s
  }
}

=== FILE: values.dfy ===
/**
 * The typed values the menuconfig app shows next to each item: parsing the
 * stored string of a symbol, the zero value of each type, the space-bar
 * toggle and the serialisation back into the symbol table's string form.
 */
module UiValues {
  import opened Options
  import opened Text
  import opened Decimal
  import Symbols

  datatype TristateValue = No | Module | Yes

  datatype ConfigValue =
    | Bool(b: bool)
    | Tristate(t: TristateValue)
    | String(s: string)
    | Int(i: int)
    | Hex(h: string)

  function TypeOf(v: ConfigValue): Symbols.SymbolType {
    match v
    case Bool(_) => Symbols.SymbolType.Bool
    case Tristate(_) => Symbols.SymbolType.Tristate
    case String(_) => Symbols.SymbolType.String
    case Int(_) => Symbols.SymbolType.Int
    case Hex(_) => Symbols.SymbolType.Hex
  }

  /** A value the app can hold: a 64-bit integer, a string without edge quotes. */
  predicate Representable(v: ConfigValue) {
    && (v.Int? ==> InI64(v.i))
    && (v.String? ==> Unquoted(v.s))
  }

  /** The value is switched on (built in or, for a tristate, built as a module). */
  predicate IsOn(v: ConfigValue) {
    (v.Bool? && v.b) || (v.Tristate? && v.t != No)
  }

  /** `parse_value`: the typed reading of a stored value string. */
  function ParseValue(s: string, ty: Symbols.SymbolType): (v: ConfigValue)
    ensures TypeOf(v) == ty && Representable(v)
    ensures ty.Bool? ==> (v.b <==> s == "y")
    ensures ty.Tristate? ==> (v.t == Yes <==> s == "y") && (v.t == Module <==> s == "m")
    ensures ty.Tristate? ==> (IsOn(v) <==> Symbols.IsEnabledValue(s))
    ensures ty.String? && Unquoted(s) ==> v.s == s
    ensures ty.Int? && ParseI64(s).Some? ==> v.i == ParseI64(s).value
    ensures ty.Int? && ParseI64(s).None? ==> v.i == 0
    ensures ty.Hex? ==> v.h == s
  {
    match ty
    case Bool => Bool(s == "y")
    case Tristate =>
      if s == "y" then Tristate(Yes) else if s == "m" then Tristate(Module) else Tristate(No)
    case String => String(TrimMatches(s, '"'))
    case Int => Int(ParseI64(s).GetOr(0))
    case Hex => Hex(s)
  }

  /** The value `new` gives an item whose symbol has no stored value. */
  function ZeroValue(ty: Symbols.SymbolType): (v: ConfigValue)
    ensures TypeOf(v) == ty && Representable(v)
    ensures !IsOn(v)
    ensures !Symbols.IsEnabledValue(Serialise(v))
  {
    match ty
    case Bool => Bool(false)
    case Tristate => Tristate(No)
    case String => String("")
    case Int => Int(0)
    case Hex => Hex("0x0")
  }

  /** The value `new` gives an item, from its symbol's stored value if any. */
  function InitialValue(stored: Option<string>, ty: Symbols.SymbolType): (v: ConfigValue)
    ensures TypeOf(v) == ty && Representable(v)
    ensures stored.None? ==> v == ZeroValue(ty)
    ensures stored.Some? ==> v == ParseValue(stored.value, ty)
  {
    match stored
    case Some(s) => ParseValue(s, ty)
    case None => ZeroValue(ty)
  }

  /** The space bar: negate a bool, cycle a tristate No -> Yes -> Module -> No; others do not toggle. */
  function Toggle(v: ConfigValue): (r: Option<ConfigValue>)
    ensures r.Some? <==> (v.Bool? || v.Tristate?)
    ensures r.Some? ==> TypeOf(r.value) == TypeOf(v) && r.value != v && Representable(r.value)
    ensures v.Bool? ==> r == Some(Bool(!v.b))
    ensures v == Tristate(No) ==> r == Some(Tristate(Yes))
    ensures v == Tristate(Yes) ==> r == Some(Tristate(Module))
    ensures v == Tristate(Module) ==> r == Some(Tristate(No))
  {
    match v
    case Bool(b) => Some(Bool(!b))
    case Tristate(t) =>
      Some(Tristate(match t
        case No => Yes
        case Yes => Module
        case Module => No))
    case _ => None
  }

  /** The string a value is stored as in the symbol table. */
  function Serialise(v: ConfigValue): (r: string)
    ensures v.Bool? || v.Tristate? ==> r == "y" || r == "n" || r == "m"
    ensures v.Bool? || v.Tristate? ==> (Symbols.IsEnabledValue(r) <==> IsOn(v))
    ensures v.String? ==> |r| >= 2 && r[0] == '"' && r[|r| - 1] == '"'
  {
    match v
    case Bool(b) => if b then "y" else "n"
    case Tristate(t) =>
      (match t
        case Yes => "y"
        case No => "n"
        case Module => "m")
    case String(s) => "\"" + s + "\""
    case Int(i) => FormatInt(i)
    case Hex(h) => h
  }

  /** Applying the toggle `n` times, or None once a value does not toggle. */
  function ToggleTimes(v: ConfigValue, n: nat): Option<ConfigValue>
    decreases n
  {
    if n == 0 then Some(v)
    else
      match Toggle(v)
      case None => None
      case Some(w) => ToggleTimes(w, n - 1)
  }

  /** Three toggles bring a tristate back, and no fewer do; from No they pass through Yes, then Module. */
  lemma TristateCycle(t: TristateValue)
    ensures ToggleTimes(Tristate(t), 3) == Some(Tristate(t))
    ensures ToggleTimes(Tristate(t), 1) != Some(Tristate(t))
    ensures ToggleTimes(Tristate(t), 2) != Some(Tristate(t))
    ensures ToggleTimes(Tristate(No), 1) == Some(Tristate(Yes))
    ensures ToggleTimes(Tristate(No), 2) == Some(Tristate(Module))
  {
  }

  /** Two toggles bring a bool back. */
  lemma BoolCycle(b: bool)
    ensures ToggleTimes(Bool(b), 2) == Some(Bool(b))
    ensures ToggleTimes(Bool(b), 1) != Some(Bool(b))
  {
  }

  /** Strings, integers and hex values are never toggled. */
  lemma OnlyFlagsToggle(v: ConfigValue, n: nat)
    requires !v.Bool? && !v.Tristate? && n > 0
    ensures ToggleTimes(v, n).None?
  {
  }

  /** Reading back what the app stores gives the same value, for every representable value. */
  lemma SerialiseThenParse(v: ConfigValue)
    requires Representable(v)
    ensures ParseValue(Serialise(v), TypeOf(v)) == v
  {
    match v
    case String(s) => StringReadsBack(s);
    case Int(i) => IntReadsBack(i);
    case _ =>
  }

  lemma StringReadsBack(s: string)
    requires Unquoted(s)
    ensures ParseValue(Serialise(String(s)), Symbols.SymbolType.String) == String(s)
  {
    TrimMatchesQuoted(s);
  }

  lemma IntReadsBack(i: int)
    requires InI64(i)
    ensures ParseValue(Serialise(Int(i)), Symbols.SymbolType.Int) == Int(i)
  {
    FormatThenParse(i);
  }

  /** The stored string determines a value of a given type. */
  lemma SerialiseInjective(v: ConfigValue, w: ConfigValue)
    requires Representable(v) && Representable(w) && TypeOf(v) == TypeOf(w)
    ensures Serialise(v) == Serialise(w) <==> v == w
  {
    if Serialise(v) == Serialise(w) {
      SerialiseThenParse(v);
      SerialiseThenParse(w);
    }
  }

  /** A toggled value is stored as y, n or m and reads back as itself. */
  lemma ToggledValueReadsBack(v: ConfigValue)
    requires Toggle(v).Some?
    ensures var w := Toggle(v).value;
      && (Serialise(w) == "y" || Serialise(w) == "n" || Serialise(w) == "m")
      && ParseValue(Serialise(w), TypeOf(w)) == w
  {
    SerialiseThenParse(Toggle(v).value);
  }

  /** A zero value survives being stored and read back. */
  lemma ZeroValueReadsBack(ty: Symbols.SymbolType)
    ensures ParseValue(Serialise(ZeroValue(ty)), ty) == ZeroValue(ty)
    ensures InitialValue(Some(Serialise(ZeroValue(ty))), ty) == InitialValue(None, ty)
  {
    SerialiseThenParse(ZeroValue(ty));
  }
}

=== FILE: writer.dfy ===
/**
 * The `.config` writer of `src/config/writer.rs`, as a pure function from
 * the symbol table (and the order in which its map yields the symbols) to
 * the lines of the file, together with what the reader of
 * `src/config/reader.rs` makes of those lines.
 */
module ConfigWriter {
  import opened Options
  import opened Text
  import opened Symbols
  import opened ConfigReader

  /** The warning carried by the header of every generated file. */
  const Banner: string := "Automatically generated file; DO NOT EDIT."

  /** The three comment lines every `.config` starts with. */
  const Header: seq<string> := ["#", "# " + Banner, "#"]

  /** The number of header lines. */
  const HeaderLength: nat := 3

  /** A value recorded as an assignment rather than as `is not set`. */
  predicate IsSet(v: Option<string>) {
    v.Some? && v.value != "n"
  }

  /** The `# NAME is not set` line. */
  function NotSetLine(name: string): string {
    "# " + name + " is not set"
  }

  /** The one line written for a symbol called `name` holding `value`. */
  function SymbolLine(name: string, value: Option<string>): (line: string)
    ensures IsSet(value) ==> StartsWith(line, name + "=")
    ensures !IsSet(value) ==> line == NotSetLine(name)
  {
    match value
    case Some(v) =>
      if IsEnabledValue(v) then name + "=" + v
      else if v == "n" then NotSetLine(name)
      else name + "=\"" + v + "\""
    case None => NotSetLine(name)
  }

  /** The per-symbol lines, in the order the table is enumerated. */
  function Body(t: Table, order: seq<string>): (lines: seq<string>)
    requires forall i :: 0 <= i < |order| ==> order[i] in t
    ensures |lines| == |order|
    ensures forall i :: 0 <= i < |order| ==> lines[i] == SymbolLine(order[i], t[order[i]].value)
    decreases |order|
  {
    if |order| == 0 then []
    else
      var last := |order| - 1;
      Body(t, order[..last]) + [SymbolLine(order[last], t[order[last]].value)]
  }

  /**
   * `ConfigWriter::write`: the header, then exactly one line per symbol of
   * the table.
   */
  function Write(t: Table, order: seq<string>): (lines: seq<string>)
    requires Enumerates(t, order)
    ensures |lines| == HeaderLength + |order| == HeaderLength + |t|
    ensures lines[..HeaderLength] == Header
    ensures forall i :: 0 <= i < |order| ==> lines[HeaderLength + i] == SymbolLine(order[i], t[order[i]].value)
  {
    var body := Body(t, order);
    EnumerationLength(t, order);
    HeaderThenLines(Header, body, t, order);
    Header + body
  }

  /** Where the header and the symbol lines sit in the file made of both. */
  lemma HeaderThenLines(header: seq<string>, body: seq<string>, t: Table, order: seq<string>)
    requires |header| == HeaderLength && |body| == |order|
    requires forall i :: 0 <= i < |order| ==> order[i] in t
    requires forall i :: 0 <= i < |order| ==> body[i] == SymbolLine(order[i], t[order[i]].value)
    ensures |header + body| == HeaderLength + |order|
    ensures (header + body)[..HeaderLength] == header
    ensures forall i :: 0 <= i < |order| ==> (header + body)[HeaderLength + i] == SymbolLine(order[i], t[order[i]].value)
  {
    HeaderThenBody(header, HeaderLength, body);
  }

  /** Where the header and the body sit in the file made of both. */
  lemma HeaderThenBody(header: seq<string>, n: nat, body: seq<string>)
    requires |header| == n
    ensures |header + body| == n + |body|
    ensures (header + body)[..n] == header
    ensures forall i :: 0 <= i < |body| ==> (header + body)[n + i] == body[i]
  {
  }

  /** How each kind of value is written. */
  lemma SymbolLineForms(name: string, value: Option<string>)
    ensures value.Some? && IsEnabledValue(value.value) ==> SymbolLine(name, value) == name + "=" + value.value
    ensures !IsSet(value) ==> SymbolLine(name, value) == "# " + name + " is not set"
    ensures IsSet(value) && !IsEnabledValue(value.value) ==>
              SymbolLine(name, value) == name + "=" + "\"" + value.value + "\""
  {
  }

  /**
   * A name the reader gives back unchanged from a `NAME=...` line: no `=`,
   * no line break (the file is split into lines before it is read), no
   * surrounding whitespace and no leading `#`.
   */
  predicate WritableName(name: string) {
    '=' !in name && '\n' !in name && NoEdge(name, IsSpace) && (|name| > 0 ==> name[0] != '#')
  }

  /** A stored value the writer can put on one line and the reader gives back unchanged. */
  predicate WritableValue(v: string) {
    Unquoted(v) && '\n' !in v
  }

  /** Every name and every stored value is writable. */
  predicate WritableTable(t: Table) {
    forall k :: k in t ==> WritableName(k) && (t[k].value.Some? ==> WritableValue(t[k].value.value))
  }

  lemma HeaderSkipped(j: nat)
    requires j < HeaderLength
    ensures Classify(Header[j]) == Skip
  {
    CommentLineSkipped(Header[j]);
  }

  /** Stripping the quotes the writer adds gives back an unquoted value. */
  lemma QuotedValueReadsBack(v: string)
    requires Unquoted(v)
    ensures TrimMatches(Trim("\"" + v + "\""), '"') == v
  {
    assert NoEdge("\"" + v + "\"", IsSpace);
    TrimMatchesQuoted(v);
  }

  /** The reader's view of the line written for one symbol. */
  lemma SymbolLineReadsBack(name: string, value: Option<string>)
    requires WritableName(name)
    requires value.Some? ==> Unquoted(value.value)
    ensures IsSet(value) ==> Classify(SymbolLine(name, value)) == Assign(name, value.value)
    ensures !IsSet(value) ==> Classify(SymbolLine(name, value)) == Skip
  {
    if !IsSet(value) {
      assert SymbolLine(name, value) == NotSetLine(name);
      CommentLineSkipped(NotSetLine(name));
    } else if IsEnabledValue(value.value) {
      EnabledLineReadsBack(name, value.value);
    } else {
      QuotedLineReadsBack(name, value.value);
    }
  }

  lemma EnabledLineReadsBack(name: string, v: string)
    requires WritableName(name) && IsEnabledValue(v)
    ensures Classify(name + "=" + v) == Assign(name, v)
  {
    assert '=' !in name && NoEdge(name, IsSpace);
    ClassifyAssignmentLine(name, v);
    EnabledValueUntouched(v);
  }

  /** Trimming and quote stripping leave `y` and `m` as they are. */
  lemma EnabledValueUntouched(v: string)
    requires IsEnabledValue(v)
    ensures Trim(v) == v && TrimMatches(Trim(v), '"') == v
  {
    assert NoEdge(v, IsSpace);
    assert NoEdge(v, Is('"'));
  }

  lemma QuotedLineReadsBack(name: string, v: string)
    requires WritableName(name) && Unquoted(v)
    ensures Classify(name + "=\"" + v + "\"") == Assign(name, v)
  {
    var quoted := "\"" + v + "\"";
    assert name + "=\"" + v + "\"" == name + "=" + quoted;
    ClassifyAssignmentLine(name, quoted);
    QuotedValueReadsBack(v);
  }

  /**
   * What a reader makes of the line written for `t[name]`: the assignment
   * for a set value; for an unset or `"n"` value, a not-set binding when the
   * reader honours `# NAME is not set` (`notSetRead`), nothing otherwise.
   */
  function ExpectedKind(t: Table, name: string, notSetRead: bool): LineKind
    requires name in t
  {
    if IsSet(t[name].value) then Assign(name, t[name].value.value)
    else if notSetRead then NotSet(name)
    else Skip
  }

  /** The map such a reader should produce from a written table. */
  function ReadBackValues(t: Table, notSetRead: bool): map<string, string> {
    map k | k in t && (IsSet(t[k].value) || notSetRead) ::
      if IsSet(t[k].value) then t[k].value.value else "n"
  }

  /** `lines` classify as a header followed by one expected line per enumerated name. */
  predicate ClassifiedAsWritten(lines: seq<string>, t: Table, order: seq<string>,
                                classify: string -> LineKind, notSetRead: bool)
    requires forall i :: 0 <= i < |order| ==> order[i] in t
  {
    && |lines| == HeaderLength + |order|
    && (forall j :: 0 <= j < HeaderLength ==> classify(lines[j]) == Skip)
    && (forall i :: 0 <= i < |order| ==> classify(lines[HeaderLength + i]) == ExpectedKind(t, order[i], notSetRead))
  }

  /** Only the line at `HeaderLength + i` can bind `order[i]`, when names are distinct. */
  lemma OnlyOwnLineBinds(lines: seq<string>, t: Table, order: seq<string>,
                         classify: string -> LineKind, notSetRead: bool, i: nat, j: nat)
    requires forall i :: 0 <= i < |order| ==> order[i] in t
    requires forall a, b :: 0 <= a < b < |order| ==> order[a] != order[b]
    requires ClassifiedAsWritten(lines, t, order, classify, notSetRead)
    requires i < |order| && j < |lines| && j != HeaderLength + i
    ensures !BindsName(classify(lines[j]), order[i])
  {
    if j >= HeaderLength {
      var i' := j - HeaderLength;
      assert lines[j] == lines[HeaderLength + i'];
      assert order[i'] != order[i];
    }
  }

  /** A name the reader is expected to report comes back with its expected value. */
  lemma ExpectedSymbolReadBack(lines: seq<string>, t: Table, order: seq<string>,
                               classify: string -> LineKind, notSetRead: bool, i: nat)
    requires forall i :: 0 <= i < |order| ==> order[i] in t
    requires forall a, b :: 0 <= a < b < |order| ==> order[a] != order[b]
    requires ClassifiedAsWritten(lines, t, order, classify, notSetRead)
    requires i < |order| && order[i] in ReadBackValues(t, notSetRead)
    ensures order[i] in Fold(lines, classify)
    ensures Fold(lines, classify)[order[i]] == ReadBackValues(t, notSetRead)[order[i]]
  {
    var k := order[i];
    forall j | HeaderLength + i < j < |lines| ensures !BindsName(classify(lines[j]), k) {
      OnlyOwnLineBinds(lines, t, order, classify, notSetRead, i, j);
    }
    assert classify(lines[HeaderLength + i]) == ExpectedKind(t, k, notSetRead);
    LastBindingWins(lines, classify, HeaderLength + i, k, ReadBackValues(t, notSetRead)[k]);
  }

  lemma UnexpectedNotBoundAt(lines: seq<string>, t: Table, order: seq<string>,
                             classify: string -> LineKind, notSetRead: bool, k: string, j: nat)
    requires forall i :: 0 <= i < |order| ==> order[i] in t
    requires ClassifiedAsWritten(lines, t, order, classify, notSetRead)
    requires k !in ReadBackValues(t, notSetRead)
    requires j < |lines|
    ensures !BindsName(classify(lines[j]), k)
  {
    if j >= HeaderLength {
      var i := j - HeaderLength;
      assert lines[j] == lines[HeaderLength + i];
      var n := order[i];
      assert classify(lines[j]) == ExpectedKind(t, n, notSetRead);
      if IsSet(t[n].value) || notSetRead {
        assert n in ReadBackValues(t, notSetRead);
      }
    }
  }

  /** A name the reader is not expected to report is absent. */
  lemma UnexpectedSymbolAbsent(lines: seq<string>, t: Table, order: seq<string>,
                               classify: string -> LineKind, notSetRead: bool, k: string)
    requires forall i :: 0 <= i < |order| ==> order[i] in t
    requires ClassifiedAsWritten(lines, t, order, classify, notSetRead)
    requires k !in ReadBackValues(t, notSetRead)
    ensures k !in Fold(lines, classify)
  {
    forall j | 0 <= j < |lines| ensures !BindsName(classify(lines[j]), k) {
      UnexpectedNotBoundAt(lines, t, order, classify, notSetRead, k, j);
    }
    BoundIffSomeLineBinds(lines, classify, k);
  }

  /** Any reader that classifies the written lines as expected rebuilds `ReadBackValues`. */
  lemma ClassifiedLinesReadBack(lines: seq<string>, t: Table, order: seq<string>,
                                classify: string -> LineKind, notSetRead: bool)
    requires Enumerates(t, order)
    requires ClassifiedAsWritten(lines, t, order, classify, notSetRead)
    ensures Fold(lines, classify) == ReadBackValues(t, notSetRead)
  {
    var m := Fold(lines, classify);
    var w := ReadBackValues(t, notSetRead);
    forall k | k in w ensures k in m && m[k] == w[k] {
      var i :| 0 <= i < |order| && order[i] == k;
      ExpectedSymbolReadBack(lines, t, order, classify, notSetRead, i);
    }
    forall k | k !in w ensures k !in m {
      UnexpectedSymbolAbsent(lines, t, order, classify, notSetRead, k);
    }
    assert m == w;
  }

  /** Both readers skip the header lines of a written file. */
  lemma WrittenHeaderSkipped(t: Table, order: seq<string>, j: nat)
    requires Enumerates(t, order) && j < HeaderLength
    ensures Classify(Write(t, order)[j]) == Skip
    ensures ClassifyIntended(Write(t, order)[j]) == Skip
  {
    var lines := Write(t, order);
    assert lines[j] == lines[..HeaderLength][j];
    HeaderSkipped(j);
    HeaderSkippedIntended(j);
  }

  /**
   * The line written for a writable symbol is a single line, so splitting
   * the file at line breaks gives it back whole.
   */
  lemma SymbolLineHasNoBreak(name: string, value: Option<string>)
    requires WritableName(name) && (value.Some? ==> WritableValue(value.value))
    ensures '\n' !in SymbolLine(name, value)
  {
    SymbolLineForms(name, value);
  }

  /** Each header line is a single line as well. */
  lemma HeaderHasNoBreaks(j: nat)
    requires j < HeaderLength
    ensures '\n' !in Header[j]
  {
    if j == 1 {
      assert Header[1] == "# " + Banner;
    }
  }

  /** The reader's view of the line written for the `i`-th enumerated symbol. */
  lemma WrittenLineClassified(t: Table, order: seq<string>, i: nat)
    requires Enumerates(t, order) && WritableTable(t) && i < |order|
    ensures Classify(Write(t, order)[HeaderLength + i]) == ExpectedKind(t, order[i], false)
  {
    var k := order[i];
    var line := Write(t, order)[HeaderLength + i];
    assert line == SymbolLine(k, t[k].value);
    assert WritableName(k);
    SymbolLineReadsBack(k, t[k].value);
  }

  /** The reader's view of every line of the written file. */
  lemma WrittenLinesClassified(t: Table, order: seq<string>)
    requires Enumerates(t, order) && WritableTable(t)
    ensures ClassifiedAsWritten(Write(t, order), t, order, Classify, false)
  {
    var lines := Write(t, order);
    forall j | 0 <= j < HeaderLength {
      WrittenHeaderSkipped(t, order, j);
    }
    forall i | 0 <= i < |order| {
      WrittenLineClassified(t, order, i);
    }
  }

  /**
   * Round trip: reading back a written `.config` gives every symbol whose
   * value is set and not `"n"`, with that value; symbols that are unset or
   * `"n"` are absent.
   */
  lemma WriteThenRead(t: Table, order: seq<string>)
    requires Enumerates(t, order) && WritableTable(t)
    ensures Read(Write(t, order)) == ReadBackValues(t, false)
    ensures forall k :: k in t && IsSet(t[k].value) ==>
              k in Read(Write(t, order)) && Read(Write(t, order))[k] == t[k].value.value
    ensures forall k :: k in Read(Write(t, order)) ==> k in t && IsSet(t[k].value)
  {
    WrittenLinesClassified(t, order);
    ClassifiedLinesReadBack(Write(t, order), t, order, Classify, false);
  }

  /**
   * A symbol set to `"n"` is written as `# NAME is not set` and is therefore
   * absent when the file is read back, although the repository's round-trip
   * test expects `"n"`.
   */
  lemma NotSetIsLostOnReadBack(t: Table, order: seq<string>, k: string)
    requires Enumerates(t, order) && WritableTable(t)
    requires k in t && t[k].value == Some("n")
    ensures k !in Read(Write(t, order))
  {
    WriteThenRead(t, order);
  }

  /** Names in the kernel's `CONFIG_` convention that the not-set line can carry back. */
  predicate KernelNames(t: Table) {
    forall k :: k in t ==> StartsWith(k, "CONFIG_") && !EndsWith(k, " is not set")
  }

  /** The corrected reader skips the header too. */
  lemma HeaderSkippedIntended(j: nat)
    requires j < HeaderLength
    ensures ClassifyIntended(Header[j]) == Skip
  {
    var line := Header[j];
    assert NoEdge(line, IsSpace);
    if j == 1 {
      assert line[2] == 'A';
      assert line[..9] != "# CONFIG_" by { assert line[..9][2] == 'A'; }
    }
    IntendedAgreesOffNotSet(line);
    HeaderSkipped(j);
  }

  /** The corrected reader's view of the line written for one symbol. */
  lemma SymbolLineReadsBackIntended(name: string, value: Option<string>)
    requires WritableName(name) && StartsWith(name, "CONFIG_") && !EndsWith(name, " is not set")
    requires value.Some? ==> Unquoted(value.value)
    ensures IsSet(value) ==> ClassifyIntended(SymbolLine(name, value)) == Assign(name, value.value)
    ensures !IsSet(value) ==> ClassifyIntended(SymbolLine(name, value)) == NotSet(name)
  {
    if !IsSet(value) {
      NotSetLineReadIntended(name);
    } else {
      var line := SymbolLine(name, value);
      if IsEnabledValue(value.value) {
        AssignmentLineIsTrimmed(name, value.value);
      } else {
        assert line == name + "=" + ("\"" + value.value + "\"");
        AssignmentLineIsTrimmed(name, "\"" + value.value + "\"");
      }
      NotSetLineIsComment(line);
      IntendedAgreesOffNotSet(line);
      SymbolLineReadsBack(name, value);
    }
  }

  /** The corrected reader's view of the line written for the `i`-th enumerated symbol. */
  lemma IntendedLineClassified(t: Table, order: seq<string>, i: nat)
    requires Enumerates(t, order) && WritableTable(t) && KernelNames(t) && i < |order|
    ensures ClassifyIntended(Write(t, order)[HeaderLength + i]) == ExpectedKind(t, order[i], true)
  {
    var k := order[i];
    var line := Write(t, order)[HeaderLength + i];
    assert line == SymbolLine(k, t[k].value);
    assert WritableName(k) && StartsWith(k, "CONFIG_") && !EndsWith(k, " is not set");
    SymbolLineReadsBackIntended(k, t[k].value);
  }

  lemma IntendedLinesClassified(t: Table, order: seq<string>)
    requires Enumerates(t, order) && WritableTable(t) && KernelNames(t)
    ensures ClassifiedAsWritten(Write(t, order), t, order, ClassifyIntended, true)
  {
    var lines := Write(t, order);
    forall j | 0 <= j < HeaderLength {
      WrittenHeaderSkipped(t, order, j);
    }
    forall i | 0 <= i < |order| {
      IntendedLineClassified(t, order, i);
    }
  }

  /**
   * With the not-set branch reachable, the round trip the repository's test
   * expects holds: every symbol comes back, set ones with their value and
   * unset or `"n"` ones as `"n"`.
   */
  lemma WriteThenReadIntended(t: Table, order: seq<string>)
    requires Enumerates(t, order) && WritableTable(t) && KernelNames(t)
    ensures ReadIntended(Write(t, order)).Keys == t.Keys
    ensures forall k :: k in t ==>
              ReadIntended(Write(t, order))[k] == (if IsSet(t[k].value) then t[k].value.value else "n")
  {
    IntendedLinesClassified(t, order);
    ClassifiedLinesReadBack(Write(t, order), t, order, ClassifyIntended, true);
    EveryValueReadBack(t);
  }

  /** Counting not-set lines, every symbol has an expected read-back value. */
  lemma EveryValueReadBack(t: Table)
    ensures ReadBackValues(t, true).Keys == t.Keys
    ensures forall k :: k in t ==>
              ReadBackValues(t, true)[k] == (if IsSet(t[k].value) then t[k].value.value else "n")
  {
  }
}
